=== FILE: README.md ===
# Metric search front end — verified model of its core

This Dafny project models the core of a Next.js front end for a financial
metric extraction tool. The model has four parts:

- **Citation highlight and page navigation** of the PDF viewer
  (`PdfScrollViewer`), in `pdf_highlight.dfy` and `pdf_scroll.dfy`:
  - how a Fitz rectangle becomes a padded overlay on the rendered page;
  - the one-entry highlight-style cache and the two code paths that fill it;
  - the rule for which page shows the overlay;
  - the guard of `scrollToTarget`;
  - the bounded `tryScroll` retry chain, including the retry timers that several chains leave pending.
- **`GET /api/quarters`**, in `quarters.dfy`:
  - virtual folders become `{title, slug, description}` records;
  - the two regular expressions are written out as scanners;
  - records are sorted latest quarter first.
- **`GET` and `POST /api/metric-templates`**, in `metric_templates.dfy` and
  `uri_component.dfy`:
  - template names listed from `metric_templates/*.json`;
  - the POST validation chain;
  - the Excel URL's precedence and extension;
  - `encodeURIComponent`;
  - the per-metric normalisation.
- **The dashboard page**, in `dashboard.dfy`:
  - its immutable list updates;
  - the latest/previous quarter split;
  - the template select's value mapping;
  - the rows and save guard of the new-template dialog.

`common.dfy` holds the shared JavaScript string semantics:
- the white-space set of `\s` and `trim`;
- ASCII `toLowerCase`;
- `trim`;
- prefix and suffix tests.

Everything is pure. A React state update is a function from the state it reads to the state it sets. Storage listings, the parse outcome of `JSON.parse` and a stored template's `excel_url` are inputs. The blobs a save writes are returned as a list.

Assumptions:
- The pdf.js viewport is the rotation-0 map of a page whose view box starts at the origin: `(x, y) ↦ (x·s, (H − y)·s)`, where `s = width / view[2]`.
- A loaded page has a positive width (`PageBox`).
- Numbers are `real`; `NaN` and `±Infinity` are not represented.
- A width is truthy when it is present and not 0.

Three behaviours of the code worth noting:
- **Run count.** The scroll chain runs `tryScroll` up to 11 times (the first run plus `maxAttempts` = 10 retries), not 10 times.
- **No cancellation.** A new target page, page count or scroll signal starts a new chain. The timers of earlier chains are not cancelled: `ScrollRetry.Launch` keeps every pending timer.
- **Latched width.** The highlight effect uses the width latched at the most recent page load (`latestPageWidthRef`) when that width was defined, whatever the current container width is. Each page load overwrites the latch. While it is undefined, `??` falls back to the container width (`PdfHighlight.EffectWidth`, `PdfHighlight.LatchedWidthWins`).

## Model

| member | source | states |
|---|---|---|
| `Common.LowerChar` | frontend/app/api/quarters/route.ts:11 | 'A'..'Z' become the matching letter of 'a'..'z'; every other character is kept, and white space stays white space |
| `Common.Lower` | frontend/app/api/quarters/route.ts:11 | `toLowerCase` keeps the length, leaves no ASCII capital, and maps each character on its own as `LowerChar` does |
| `Common.Trim` | frontend/app/api/metric-templates/route.ts:45 | `trim` returns a slice of the input. Only white space lies outside it, and the result has no white space at either end. It is empty exactly when the input is all white space |
| `Common.TrimOfTrimmed` | frontend/app/page.tsx:312-317 | trimming a string that already has non-space ends gives it back unchanged |
| `Common.DigitValue` | frontend/app/api/quarters/route.ts:29 | a decimal digit's value is its distance from '0', between 0 and 9 |
| `PdfHighlight.FitzToPdf` | frontend/components/pdf-scroll-viewer.tsx:145-147 | x coordinates are kept; each new y is measured from the opposite page edge, so `y0' = H − y1` and `y1' = H − y0` |
| `PdfHighlight.FitzToPdfInvolution` | frontend/components/pdf-scroll-viewer.tsx:145-147 | flipping between Fitz and PDF user-space coordinates twice restores the rectangle |
| `PdfHighlight.RenderScale` | frontend/components/pdf-scroll-viewer.tsx:141 | the scale makes the page's native width fill the given width. It is positive for a positive width and 0 for width 0 |
| `PdfHighlight.Overlay` | frontend/components/pdf-scroll-viewer.tsx:156-159 | the overlay contains the viewport rectangle with exactly `PADDING` = 4 px to spare on every side, so its width and height are at least 8 |
| `PdfHighlight.OverlayCornerOrder` | frontend/components/pdf-scroll-viewer.tsx:156-159 | naming the viewport corners in any order gives the same overlay |
| `PdfHighlight.HighlightStyle` | frontend/components/pdf-scroll-viewer.tsx:141-159 | the style computed for a page: under the rotation-0 viewport the two flips cancel. The overlay is the Fitz rectangle scaled by `width / view[2]`, its left/top at `min·s − 4` and its size at `|Δ|·s + 8` |
| `PdfHighlight.UpdateHighlightStyle` | frontend/components/pdf-scroll-viewer.tsx:125-128 | after an update the cache holds exactly the given page, with the given style |
| `PdfHighlight.EffectWidth` | frontend/components/pdf-scroll-viewer.tsx:138 | a latched width wins; without one the container width is used |
| `PdfHighlight.RecomputeHighlight` | frontend/components/pdf-scroll-viewer.tsx:131-161 | a null highlight empties the cache. A missing page proxy or a falsy width leaves it unchanged. Otherwise the cache becomes exactly the highlighted page's style at the latched-or-current width |
| `PdfHighlight.PageLoaded` | frontend/components/pdf-scroll-viewer.tsx:187-211 | the page proxy is stored and the current width latched. The cache becomes that page's style exactly when the highlight is on this page and the width is truthy; otherwise it is unchanged |
| `PdfHighlight.PathsAgree` | frontend/components/pdf-scroll-viewer.tsx:131-211 | once the highlighted page has loaded, re-running the highlight effect at the same width changes nothing, so both paths compute the same style |
| `PdfHighlight.LatchedWidthWins` | frontend/components/pdf-scroll-viewer.tsx:138 | once a width is latched, the effect's outcome does not depend on the container width |
| `PdfHighlight.OverlayAt` | frontend/components/pdf-scroll-viewer.tsx:227-229 | page `idx` shows an overlay exactly when the highlight's 1-based page is `idx + 1` and the cache holds that page |
| `PdfHighlight.SingleOverlay` | frontend/components/pdf-scroll-viewer.tsx:227-229 | at most one page shows an overlay |
| `PdfHighlight.StylesStayOnLoadedPages` | frontend/components/pdf-scroll-viewer.tsx:131-211 | every cached style belongs to a loaded page: true of the empty viewer and kept by the effect and by every page load |
| `PdfHighlight.OverlayAppearsOnLoad` | frontend/components/pdf-scroll-viewer.tsx:187-229 | in any viewer whose cache holds only loaded pages (whatever width is latched), a highlight on a page that has not loaded shows nowhere. That page's load alone makes it appear there with the computed style |
| `ScrollRetry.ScrollToTarget` | frontend/components/pdf-scroll-viewer.tsx:87-95 | it scrolls exactly when the target and the page count are known and element `target − 1` is mounted. The element it scrolls is the 1-based target's |
| `ScrollRetry.ScrollOnPageEvent` | frontend/components/pdf-scroll-viewer.tsx:213-222 | a page's load and render callbacks scroll exactly when that page is the 1-based target, the page count is known and the page's element is mounted, and then to that page only |
| `ScrollRetry.Retry` | frontend/components/pdf-scroll-viewer.tsx:106-116 | the chain ends after at most `maxAttempts + 1` runs. No run before the last finds the element ready. It scrolls exactly when the last run finds it ready, and a chain that does not scroll used every retry |
| `ScrollRetry.ScrollEffect` | frontend/components/pdf-scroll-viewer.tsx:99-120 | nothing runs when the target is null or ≤ 0 or the page count is null. Otherwise it makes at most 11 runs and stops at the first run whose element has positive height |
| `ScrollRetry.EffectStopsAtFirstReady` | frontend/components/pdf-scroll-viewer.tsx:99-120 | the effect scrolls exactly when some run within the 11 finds the page ready. If run `k` is the first ready one, the chain makes exactly `k + 1` runs; if none is ready, it makes all 11 |
| `ScrollRetry.Launch` | frontend/components/pdf-scroll-viewer.tsx:99-120 | starting a chain keeps every pending timer of earlier chains. It adds one first-retry timer exactly when the guard passes and the page is not ready at once |
| `ScrollRetry.Fire` | frontend/components/pdf-scroll-viewer.tsx:106-116 | a firing timer is removed and every other pending timer is kept in order. A next-retry timer for the same page with one more attempt is added exactly when the page is not ready and fewer than 10 retries were used. The timers stay well formed and the total number of runs still possible strictly drops, so every set of chains dies out |
| `Quarters.CollapseSpaces` | frontend/app/api/quarters/route.ts:11 | replacing white-space runs never lengthens the text |
| `Quarters.CollapseSpacesShape` | frontend/app/api/quarters/route.ts:11 | replacing white-space runs leaves no white space and adds no capital. Text without white space is unchanged |
| `Quarters.CollapseAppend` | frontend/app/api/quarters/route.ts:11 | the replacement distributes over a cut that does not split a white-space run |
| `Quarters.CollapseRun` | frontend/app/api/quarters/route.ts:11 | a white-space run between a non-space end and a non-space start becomes one '-' |
| `Quarters.Slug` | frontend/app/api/quarters/route.ts:10-12 | a slug has no white space and no ASCII capital, and is never longer than the title. A title without white space is only lower-cased |
| `Quarters.SlugIdempotent` | frontend/app/api/quarters/route.ts:10-12 | the slug of a slug is itself |
| `Quarters.SlugSpaceRun` | frontend/app/api/quarters/route.ts:11 | a maximal white-space run between two words becomes exactly one '-' |
| `Quarters.SlugOfQuarterName` | frontend/app/api/quarters/route.ts:10-12 | the slug of "FYyy" is its lower-case form, and the slug of "FYyy Qq" is the lower-cased "FYyy" and "Qq" joined by '-' |
| `Quarters.FindFy` | frontend/app/api/quarters/route.ts:16 | the pattern's match starts at the leftmost position where "FY" and two digits occur |
| `Quarters.MatchFy` | frontend/app/api/quarters/route.ts:16 | there is no match exactly when "FY" and two digits occur nowhere. A match is taken at the leftmost such position: it captures the two digits after "FY" as the year and, as the quarter, the digit after optional white space and 'Q' that follows them |
| `Quarters.Description` | frontend/app/api/quarters/route.ts:14-23 | the description is empty exactly when the title has no match |
| `Quarters.DescriptionOfQuarterName` | frontend/app/api/quarters/route.ts:14-23 | "FYyy" gives "Financial Year 20yy" and "FYyy Qq" gives "Financial Year 20yy - Quarter q" |
| `Quarters.NoMatchNoDescription` | frontend/app/api/quarters/route.ts:17 | a title without the pattern has the empty description |
| `Quarters.PercentCheckRedundant` | frontend/app/api/quarters/route.ts:60-63 | every name the anchored pattern accepts also passes the '%' filter |
| `Quarters.ParseKey` | frontend/app/api/quarters/route.ts:26-30 | the year is the two digits after the leftmost "FY" + two digits, read as a decimal number. The quarter is the digit after optional white space and a 'Q' that follow those digits, and 0 when there is none. The year is at most 99 and the quarter at most 9. An unparseable name is year 0, quarter 0 |
| `Quarters.ParseKeyOfQuarterName` | frontend/app/api/quarters/route.ts:26-30 | the key of "FYab" is year `10a + b` and quarter 0; the key of "FYab Qc" has quarter `c` |
| `Quarters.Compare` | frontend/app/api/quarters/route.ts:25-35 | the comparator is 0 exactly on equal keys, and negative exactly when the first name has the later year, or the same year and the later quarter |
| `Quarters.CompareIsRankOrder` | frontend/app/api/quarters/route.ts:25-35 | the comparator's sign is the reverse of the (year, quarter) order. It is antisymmetric and returns 0 exactly on equal year and quarter |
| `Quarters.CompareTransitive` | frontend/app/api/quarters/route.ts:25-35 | the comparator is transitive |
| `Quarters.YearOnlyAfterItsQuarters` | frontend/app/api/quarters/route.ts:29-34 | a year-only "FYyy" sorts after every "FYyy Qq" of that year with q ≠ 0 |
| `Quarters.UnparseableRanksLast` | frontend/app/api/quarters/route.ts:28-34 | a name without a match sorts after every other name |
| `Quarters.SortedAgreesWithCompare` | frontend/app/api/quarters/route.ts:65 | in a latest-first sequence the comparator never asks for a swap |
| `Quarters.SortQuarters` | frontend/app/api/quarters/route.ts:65 | the sorted names are a permutation of the input, latest quarter first |
| `Quarters.SortByStable` | frontend/app/api/quarters/route.ts:65 | the insertion sort is stable: for every key value, the elements with that key appear in the output in their input order |
| `Quarters.SortQuartersStable` | frontend/app/api/quarters/route.ts:65 | names of equal rank, such as "FY24 Q1" and "fy24 q1", keep their input order, as the stable `Array.prototype.sort` keeps them when the comparator returns 0 |
| `Quarters.StripTrailingSlash` | frontend/app/api/quarters/route.ts:52 | exactly one trailing '/' is removed when present; otherwise the name is unchanged |
| `Quarters.FolderName` | frontend/app/api/quarters/route.ts:51-53 | a prefix entry gives its name without the trailing '/' exactly when that is non-empty; blob entries and empty names give nothing |
| `Quarters.CollectFolders` | frontend/app/api/quarters/route.ts:47-57 | the folder set holds each non-empty stripped prefix name exactly once, and nothing else. The names are in the order the listing first shows them, as `Array.from` of a `Set` gives them |
| `Quarters.FilterQuarterNames` | frontend/app/api/quarters/route.ts:60-63 | a name survives exactly when it has no '%' and matches the case-insensitive `FYdd` / `FYdd Qd` shape |
| `Quarters.FilterQuarterNamesConcat` | frontend/app/api/quarters/route.ts:60-63 | the filters keep the surviving names in input order: filtering a concatenation gives the filtered parts in turn |
| `Quarters.FilterKeepsSeenOrder` | frontend/app/api/quarters/route.ts:60-63 | names in first-seen order stay in first-seen order after the filters |
| `Quarters.ToRecords` | frontend/app/api/quarters/route.ts:67-71 | one record per title, in order, whose slug and description are those of its title |
| `Quarters.ListQuarters` | frontend/app/api/quarters/route.ts:47-73 | the response titles are distinct and sorted latest first. They are exactly the kept folder names. Titles of equal rank appear in the order the listing first shows them. Each record carries its title's slug and description |
| `UriComponent.Encode` | frontend/app/api/metric-templates/route.ts:94 | the encoding holds only unreserved characters and '%'. It is never shorter than the input, and equals the input exactly when nothing needed escaping |
| `UriComponent.DecodeEncode` | frontend/app/api/metric-templates/route.ts:94 | the escapes are the upper-case hexadecimal UTF-8 bytes of each reserved character: decoding percent escapes as UTF-8 gives the input back |
| `UriComponent.EncodeInjective` | frontend/app/api/metric-templates/route.ts:94 | different blob names never share an encoding |
| `UriComponent.EncodeConcat` | frontend/app/api/metric-templates/route.ts:94 | encoding works character by character: the encoding of a concatenation is the concatenation of encodings |
| `UriComponent.NoSlashAfterEncoding` | frontend/app/api/metric-templates/route.ts:94 | no '/' survives encoding |
| `MetricTemplates.StripJsonSuffix` | frontend/app/api/metric-templates/route.ts:26 | a name ending in ".json" loses exactly that suffix |
| `MetricTemplates.ListedName` | frontend/app/api/metric-templates/route.ts:23-27 | a listed name never contains '/' |
| `MetricTemplates.JsonSuffixStripped` | frontend/app/api/metric-templates/route.ts:26 | a name with ".json" appended loses exactly that suffix again |
| `MetricTemplates.ListedNameInverse` | frontend/app/api/metric-templates/route.ts:22-28 | a listed blob under the prefix is exactly the JSON blob of its listed name |
| `MetricTemplates.JsonBlobListedBack` | frontend/app/api/metric-templates/route.ts:22-28 | the JSON blob of a name without '/' is listed as that very name |
| `MetricTemplates.ListedNameUnique` | frontend/app/api/metric-templates/route.ts:22-28 | a listed blob is the JSON blob of no name without '/' other than its listed name |
| `MetricTemplates.SkippedBlobNamesNothing` | frontend/app/api/metric-templates/route.ts:22-28 | a blob the loop skips is the JSON blob of no name without '/' |
| `MetricTemplates.BlobNames` | frontend/app/api/metric-templates/route.ts:22-28 | a blob contributes at most one name, the name whose JSON blob it is, and always contributes it when that name has no '/' |
| `MetricTemplates.ListTemplateNames` | frontend/app/api/metric-templates/route.ts:14-36 | a name is listed exactly when it has no '/' and its JSON blob is in the container |
| `MetricTemplates.ListTemplateNamesConcat` | frontend/app/api/metric-templates/route.ts:22-29 | the listing keeps storage order: the names of a concatenation are the names of its parts in turn |
| `MetricTemplates.NormaliseMetrics` | frontend/app/api/metric-templates/route.ts:102-107 | length and order are kept. `pdf_blob_url` is the first truthy of `pdf_blob_url` and `docUrl`, else "". `sheet_name` is kept when truthy, else "". Other fields are dropped |
| `MetricTemplates.NormaliseIdempotent` | frontend/app/api/metric-templates/route.ts:102-107 | re-posting saved metrics stores them unchanged |
| `MetricTemplates.Extension` | frontend/app/api/metric-templates/route.ts:84-86 | the extension starts with '.' and is a suffix of the file name, or is ".xlsx". It is the file name's "." + alphanumerics tail when there is one, and ".xlsx" otherwise |
| `MetricTemplates.ExcelUrl` | frontend/app/api/metric-templates/route.ts:94 | the URL is the container's URL followed by the encoded blob name, which is one path segment |
| `MetricTemplates.ExcelUploads` | frontend/app/api/metric-templates/route.ts:81-95 | an upload is written exactly when a file was posted. It goes into the templates folder under the template's name, and the URL persisted with the template names that blob |
| `MetricTemplates.FinalExcelUrl` | frontend/app/api/metric-templates/route.ts:64-95 | with an upload the URL is the uploaded blob's (always truthy); without one it is the stored `excel_url` |
| `MetricTemplates.SaveValidated` | frontend/app/api/metric-templates/route.ts:97-121 | a falsy URL gives the "Excel file is required" 400; a truthy one saves and returns that URL |
| `MetricTemplates.SaveTemplate` | frontend/app/api/metric-templates/route.ts:38-121 | 400 for an empty trimmed name, unparseable metrics, or non-array or empty metrics. A valid request is saved exactly when there is an upload or a truthy stored `excel_url`, and otherwise gets the "Excel file is required" 400. An upload takes precedence over the stored URL. On success the JSON blob is written last under the trimmed name, with the returned URL and the normalised metrics |
| `MetricTemplates.UploadWins` | frontend/app/api/metric-templates/route.ts:64-95 | with an uploaded file, the stored template's `excel_url` has no influence |
| `MetricTemplates.JsonBlobIsListed` | frontend/app/api/metric-templates/route.ts:62 | after the JSON blob of a name without '/' is written, the listing contains that name |
| `MetricTemplates.SavedJsonBlob` | frontend/app/api/metric-templates/route.ts:62-119 | a successful save writes the JSON blob of the trimmed name last |
| `MetricTemplates.SavedTemplateIsListed` | frontend/app/api/metric-templates/route.ts:62 | a template saved under a name without '/' is listed back under that name |
| `Dashboard.TemplateChange` | frontend/app/page.tsx:167-169 | length and order are kept. Companies with the id get the template, and no other field or company changes |
| `Dashboard.TemplateChangeIdempotent` | frontend/app/page.tsx:167-169 | choosing the same template twice equals choosing it once |
| `Dashboard.TemplateChangeLastWins` | frontend/app/page.tsx:167-169 | only the latest choice for a company counts |
| `Dashboard.TemplateChangesCommute` | frontend/app/page.tsx:167-169 | choices for different companies commute |
| `Dashboard.MetricStatusChange` | frontend/app/page.tsx:185-187 | length and order are kept. Every metric with the name gets the status, and no other field or metric changes |
| `Dashboard.MetricStatusLastWins` | frontend/app/page.tsx:185-187 | only the latest decision on a metric counts |
| `Dashboard.MetricStatusChangesCommute` | frontend/app/page.tsx:185-187 | decisions on different metrics commute |
| `Dashboard.ResetStatuses` | frontend/app/page.tsx:173 | every metric keeps its name, value and box and becomes unconfirmed |
| `Dashboard.RunExtraction` | frontend/app/page.tsx:171-177 | the sheet opens in verify mode on the company. The metrics are the six initial metrics, all unconfirmed, and no metric is selected. Companies and quarters are unchanged |
| `Dashboard.RunExtractionForgetsDecisions` | frontend/app/page.tsx:171-187 | an extraction discards every earlier verify/reject decision |
| `Dashboard.InitialMetricsUnconfirmed` | frontend/app/page.tsx:73-110 | the initial metrics are already unconfirmed, so the reset returns them as they are |
| `Dashboard.ViewReport` | frontend/app/page.tsx:179-183 | the sheet opens in report mode on the company. Metrics, selected metric, companies and quarters are unchanged |
| `Dashboard.ViewReportKeepsExtraction` | frontend/app/page.tsx:171-183 | viewing a report keeps an extraction's metrics, and an extraction after a report view is the same as without it |
| `Dashboard.SplitQuarters` | frontend/app/page.tsx:147-148 | an empty list has no latest quarter and no previous ones. Otherwise the latest followed by the previous ones is the list |
| `Dashboard.JoinQuarters` | frontend/app/page.tsx:197-230 | the cards show the latest quarter, if any, then the previous ones in order |
| `Dashboard.SplitJoin` | frontend/app/page.tsx:147-148 | every quarter gets exactly one card, in list order |
| `Dashboard.JoinSplit` | frontend/app/page.tsx:147-148 | splitting the displayed cards gives back the latest and previous quarters |
| `Dashboard.CompaniesPath` | frontend/app/page.tsx:151-165 | the companies request is made exactly when there is a quarter, and goes to the latest quarter's slug |
| `Dashboard.DisplayValue` | frontend/app/page.tsx:263 | the select shows the selected template, or "none" when it is null or empty |
| `Dashboard.OnValueChange` | frontend/app/page.tsx:264-268 | "add_new" never calls `onSelect`, "none" calls it with null, and any other value is passed through |
| `Dashboard.SelectRoundTrip` | frontend/app/page.tsx:262-268 | picking the shown value reselects the current choice exactly when it is null or a non-empty name other than "none" and "add_new" |
| `Dashboard.TemplateNamedNoneUnselectable` | frontend/app/page.tsx:264-268 | no select value selects a template named "none" |
| `Dashboard.AddRow` | frontend/app/page.tsx:305 | exactly one empty row is appended and the others are kept |
| `Dashboard.UpdateRow` | frontend/app/page.tsx:307-309 | only the named field of row `index` changes; an index outside the rows changes nothing |
| `Dashboard.UpdateRowLastWins` | frontend/app/page.tsx:307-309 | typing into a field twice keeps only the second text |
| `Dashboard.UpdateRowUnchanged` | frontend/app/page.tsx:307-309 | writing back a field's current text changes nothing |
| `Dashboard.KeepOthers` | frontend/app/page.tsx:358 | the filter drops one row exactly when the index is among the positions it visits, and keeps only rows of the input |
| `Dashboard.KeepOthersSlices` | frontend/app/page.tsx:358 | the index filter drops exactly the row at the index and keeps the rest in order |
| `Dashboard.DeleteRow` | frontend/app/page.tsx:358 | deleting row `index` removes exactly that row and keeps the rest in order; an index outside the rows changes nothing |
| `Dashboard.DeleteUndoesAdd` | frontend/app/page.tsx:305-358 | deleting a freshly added row undoes the addition |
| `Dashboard.InitialRowsEdits` | frontend/app/page.tsx:301-358 | the dialog opens with one empty row, which is one `addRow` applied to no rows. Adding a row and deleting it returns there, and deleting the only row leaves no rows |
| `Dashboard.DeleteRowShifts` | frontend/app/page.tsx:358 | after a deletion each remaining row is the one at its old position or the next one |
| `Dashboard.SaveRequest` | frontend/app/page.tsx:311-318 | nothing is sent while the name is all white space. Otherwise the trimmed name is sent with the rows unchanged: a slice of the input with only white space outside it and non-space ends |
| `Dashboard.SavedNameIsTrimmed` | frontend/app/page.tsx:312-317 | the name sent is already trimmed |

## Left out

- React rendering, JSX, `useEffect`/`useLayoutEffect` scheduling, `ResizeObserver`, `scrollIntoView` and `setTimeout` delays. A retry is one more run of the chain, and the model does not track milliseconds.
- Azure Blob Storage calls, `fetch`, `streamToString`, the connection strings and the 500 responses on storage exceptions. A listing is a given sequence, and a save returns the blobs it writes.
- `JSON.parse` and `JSON.stringify`. A parse outcome is an input datatype, and a metric element is taken to be an object whose fields are strings or absent.
- `PdfHighlight.HighlightStyle`: proved for the rotation-0 viewport with view-box origin 0 only. Rotated pages and view boxes not at the origin are not modelled, and the proof says nothing about resize proportionality beyond the linear formula.
- pdf.js viewport internals, coordinate arrays with fewer than four entries, and IEEE-754 rounding; `real` stands for JavaScript numbers.
- Unicode case folding beyond ASCII. `toLowerCase` and the `/i` flags are ASCII-only here.
- `MetricTemplates.SaveTemplate`: form fields holding a `File` where a string is expected (`name`, `metrics`) are not modelled. Nor is a string in the `excel` field: a non-empty one fails at `excel.arrayBuffer()` with a 500, and an empty one counts as no file. The existing template's `excel_url` is an input rather than a download.
- The dashboard's template dialog POSTs JSON, while the handler reads `formData`. The two ends are modelled separately and not composed.
- A template name containing '/' is saved by POST but never listed by GET. The model shows this through the '/' side conditions of `MetricTemplates.SavedTemplateIsListed`.
- The upload-report, results, results-status and proxy routes, the per-template GET route and the quarter detail page are not part of this model.
- `MetricTemplateSelector`'s `loadTemplates` and the dialog's open and close handling are UI wiring with no state beyond the selected template, and are not modelled.

=== FILE: common.dfy ===
/** Shared vocabulary: an Option type, the JavaScript whitespace class and
    the ASCII character helpers the request handlers and the dashboard rely on. */
module Common {

  datatype Option<+T> = None | Some(value: T)

  /** The characters JavaScript's `\s` and `String.prototype.trim` treat as
      white space: WhiteSpace plus LineTerminator of ECMA-262. */
  predicate IsJsSpace(c: char) {
    var n := c as int;
    n == 0x20 || 0x09 <= n <= 0x0D || n == 0xA0 || n == 0x1680
    || 0x2000 <= n <= 0x200A || n == 0x2028 || n == 0x2029
    || n == 0x202F || n == 0x205F || n == 0x3000 || n == 0xFEFF
  }

  /** JavaScript truthiness of an optional string: present and non-empty. */
  predicate Truthy(s: Option<string>) {
    s.Some? && s.value != ""
  }

  predicate NoSpace(s: string) {
    forall i :: 0 <= i < |s| ==> !IsJsSpace(s[i])
  }

  predicate IsDigit(c: char) { '0' <= c <= '9' }

  predicate IsUpper(c: char) { 'A' <= c <= 'Z' }

  predicate IsAlnum(c: char) { IsDigit(c) || IsUpper(c) || 'a' <= c <= 'z' }

  function DigitValue(c: char): (d: nat)
    requires IsDigit(c)
    ensures d <= 9
    ensures c as int == '0' as int + d
  {
    c as int - '0' as int
  }

  /** ASCII part of `toLowerCase`: 'A'..'Z' become 'a'..'z', all else stays. */
  function LowerChar(c: char): (r: char)
    ensures !IsUpper(r)
    ensures IsUpper(c) ==> 'a' <= r <= 'z' && r as int - 'a' as int == c as int - 'A' as int
    ensures !IsUpper(c) ==> r == c
    ensures IsJsSpace(r) <==> IsJsSpace(c)
  {
    if IsUpper(c) then (c as int + 32) as char else c
  }

  predicate NoUpper(s: string) {
    forall i :: 0 <= i < |s| ==> !IsUpper(s[i])
  }

  function Lower(s: string): (r: string)
    ensures |r| == |s| && NoUpper(r)
    ensures forall i :: 0 <= i < |s| ==> r[i] == LowerChar(s[i])
  {
    if s == [] then [] else [LowerChar(s[0])] + Lower(s[1..])
  }

  lemma LowerOfLowerCase(s: string)
    requires NoUpper(s)
    ensures Lower(s) == s
  {
  }

  lemma LowerConcat(a: string, b: string)
    ensures Lower(a + b) == Lower(a) + Lower(b)
  {
    var l, r := Lower(a + b), Lower(a) + Lower(b);
    forall i | 0 <= i < |l| ensures l[i] == r[i] {
      if i < |a| {
        assert (a + b)[i] == a[i];
      } else {
        assert (a + b)[i] == b[i - |a|];
      }
    }
  }

  predicate StartsWith(s: string, p: string) {
    |p| <= |s| && s[..|p|] == p
  }

  predicate EndsWith(s: string, p: string) {
    |p| <= |s| && s[|s| - |p|..] == p
  }

  /** Index of the first non-space character at or after `i`. */
  function SkipSpaces(s: string, i: nat): (k: nat)
    requires i <= |s|
    ensures i <= k <= |s|
    ensures forall j :: i <= j < k ==> IsJsSpace(s[j])
    ensures k == |s| || !IsJsSpace(s[k])
    decreases |s| - i
  {
    if i < |s| && IsJsSpace(s[i]) then SkipSpaces(s, i + 1) else i
  }

  /** Length of `s` once its trailing spaces are cut off. */
  function EndOfContent(s: string, j: nat): (k: nat)
    requires j <= |s|
    ensures k <= j
    ensures forall m :: k <= m < j ==> IsJsSpace(s[m])
    ensures k == 0 || !IsJsSpace(s[k - 1])
  {
    if 0 < j && IsJsSpace(s[j - 1]) then EndOfContent(s, j - 1) else j
  }

  /** `String.prototype.trim`: drop leading and trailing white space. */
  function Trim(s: string): (r: string)
    ensures exists i, j :: 0 <= i <= j <= |s| && r == s[i..j]
                           && (forall m :: 0 <= m < i ==> IsJsSpace(s[m]))
                           && (forall m :: j <= m < |s| ==> IsJsSpace(s[m]))
    ensures r == [] || (!IsJsSpace(r[0]) && !IsJsSpace(r[|r| - 1]))
    ensures r == [] <==> forall m :: 0 <= m < |s| ==> IsJsSpace(s[m])
  {
    var i := SkipSpaces(s, 0);
    if i == |s| then
      assert s[i..i] == [];
      []
    else
      var j := EndOfContent(s, |s|);
      s[i..j]
  }

  /** Trimming is idempotent: a string with non-space ends trims to itself. */
  lemma TrimOfTrimmed(s: string)
    requires s == [] || (!IsJsSpace(s[0]) && !IsJsSpace(s[|s| - 1]))
    ensures Trim(s) == s
  {
    if s != [] {
      assert SkipSpaces(s, 0) == 0;
      assert EndOfContent(s, |s|) == |s|;
    }
  }
}

=== FILE: dashboard.dfy ===
/** The dashboard page and its template dialog: the immutable list updates
    behind its handlers, the latest/previous quarter split, the template
    select's value mapping and the new-template dialog's rows. Rendering,
    fetching and React's state scheduling are not modelled: a handler is a
    function from the state it reads to the state it sets. */
module Dashboard {
  import opened Common
  import Quarters

  datatype CompanyStatus = Fetched | UploadRequired

  datatype MetricStatus = Unconfirmed | Verified | Rejected | Selected

  datatype Company = Company(id: string, name: string, ticker: string, reportStatus: CompanyStatus,
                             template: Option<string>, reportUrl: Option<string>)

  /** Where a metric's box sits on the report, as CSS percentages. */
  datatype Coords = Coords(top: string, left: string, width: string, height: string)

  datatype Metric = Metric(name: string, value: string, status: MetricStatus, coords: Coords)

  datatype SheetMode = VerifyMode | ViewReportMode

  /** The dashboard's own state. */
  datatype Page = Page(quarters: seq<Quarters.Quarter>, companies: seq<Company>, metrics: seq<Metric>,
                       selectedCompany: Option<Company>, sheetOpen: bool, mode: SheetMode,
                       selectedMetric: Option<Metric>)

  /** The mock metrics an extraction starts from. */
  const InitialMetrics: seq<Metric> := [
    Metric("Revenue", "\U{20B9}9421.68Cr", Unconfirmed, Coords("35%", "8%", "38%", "10%")),
    Metric("EBITDA", "\U{20B9}3856.71Cr", Unconfirmed, Coords("65%", "8%", "38%", "10%")),
    Metric("Net Income", "\U{20B9}9416.36Cr", Unconfirmed, Coords("35%", "55%", "38%", "10%")),
    Metric("EPS", "\U{20B9}194.06Cr", Unconfirmed, Coords("48%", "55%", "38%", "10%")),
    Metric("Operating Margin", "\U{20B9}4272.81Cr", Unconfirmed, Coords("10%", "10%", "80%", "80%")),
    Metric("Net Margin", "\U{20B9}8560.71Cr", Unconfirmed, Coords("61%", "55%", "38%", "10%"))
  ]

  // ---------------------------------------------------------------------
  // Handlers of the dashboard
  // ---------------------------------------------------------------------

  /** `handleTemplateChange`: every company with the id gets the template;
      the list keeps its length and order and nothing else changes. */
  function TemplateChange(companies: seq<Company>, companyId: string, templateId: Option<string>): (r: seq<Company>)
    ensures |r| == |companies|
    ensures forall i :: 0 <= i < |r| ==> r[i] == companies[i].(template := r[i].template)
    ensures forall i :: 0 <= i < |r| ==> (companies[i].id == companyId ==> r[i].template == templateId)
    ensures forall i :: 0 <= i < |r| ==> (companies[i].id != companyId ==> r[i] == companies[i])
  {
    seq(|companies|, i requires 0 <= i < |companies| =>
      if companies[i].id == companyId then companies[i].(template := templateId) else companies[i])
  }

  /** Choosing the same template twice is choosing it once. */
  lemma TemplateChangeIdempotent(companies: seq<Company>, companyId: string, templateId: Option<string>)
    ensures var once := TemplateChange(companies, companyId, templateId);
            TemplateChange(once, companyId, templateId) == once
  {
  }

  /** Only the latest choice for a company counts. */
  lemma TemplateChangeLastWins(companies: seq<Company>, companyId: string, t1: Option<string>, t2: Option<string>)
    ensures TemplateChange(TemplateChange(companies, companyId, t1), companyId, t2)
            == TemplateChange(companies, companyId, t2)
  {
  }

  /** Choices for different companies do not interfere. */
  lemma TemplateChangesCommute(companies: seq<Company>, id1: string, t1: Option<string>, id2: string, t2: Option<string>)
    requires id1 != id2
    ensures TemplateChange(TemplateChange(companies, id1, t1), id2, t2)
            == TemplateChange(TemplateChange(companies, id2, t2), id1, t1)
  {
  }

  /** The statuses the verify buttons can set. */
  predicate IsDecision(s: MetricStatus) {
    s == Verified || s == Rejected
  }

  /** `handleMetricStatusChange`: every metric with the name gets the status;
      the list keeps its length and order and nothing else changes. */
  function MetricStatusChange(metrics: seq<Metric>, metricName: string, newStatus: MetricStatus): (r: seq<Metric>)
    requires IsDecision(newStatus)
    ensures |r| == |metrics|
    ensures forall i :: 0 <= i < |r| ==> r[i] == metrics[i].(status := r[i].status)
    ensures forall i :: 0 <= i < |r| ==> (metrics[i].name == metricName ==> r[i].status == newStatus)
    ensures forall i :: 0 <= i < |r| ==> (metrics[i].name != metricName ==> r[i] == metrics[i])
  {
    seq(|metrics|, i requires 0 <= i < |metrics| =>
      if metrics[i].name == metricName then metrics[i].(status := newStatus) else metrics[i])
  }

  /** Only the latest decision on a metric counts. */
  lemma MetricStatusLastWins(metrics: seq<Metric>, metricName: string, s1: MetricStatus, s2: MetricStatus)
    requires IsDecision(s1) && IsDecision(s2)
    ensures MetricStatusChange(MetricStatusChange(metrics, metricName, s1), metricName, s2)
            == MetricStatusChange(metrics, metricName, s2)
  {
  }

  /** Decisions on different metrics do not interfere. */
  lemma MetricStatusChangesCommute(metrics: seq<Metric>, n1: string, s1: MetricStatus, n2: string, s2: MetricStatus)
    requires IsDecision(s1) && IsDecision(s2) && n1 != n2
    ensures MetricStatusChange(MetricStatusChange(metrics, n1, s1), n2, s2)
            == MetricStatusChange(MetricStatusChange(metrics, n2, s2), n1, s1)
  {
  }

  /** Every metric with its status put back to unconfirmed. */
  function ResetStatuses(metrics: seq<Metric>): (r: seq<Metric>)
    ensures |r| == |metrics|
    ensures forall i :: 0 <= i < |r| ==> r[i] == metrics[i].(status := Unconfirmed)
  {
    if metrics == [] then [] else [metrics[0].(status := Unconfirmed)] + ResetStatuses(metrics[1..])
  }

  /** `handleRunExtraction`: the sheet opens in verify mode on the company,
      with the initial metrics all unconfirmed and no metric selected. */
  function RunExtraction(p: Page, company: Company): (r: Page)
    ensures r.selectedCompany == Some(company) && r.sheetOpen && r.mode == VerifyMode
    ensures r.selectedMetric.None?
    ensures |r.metrics| == |InitialMetrics|
    ensures forall i :: 0 <= i < |r.metrics| ==>
              r.metrics[i].status == Unconfirmed
              && r.metrics[i].name == InitialMetrics[i].name
              && r.metrics[i].value == InitialMetrics[i].value
              && r.metrics[i].coords == InitialMetrics[i].coords
    ensures r.companies == p.companies && r.quarters == p.quarters
  {
    p.(selectedCompany := Some(company), metrics := ResetStatuses(InitialMetrics),
       selectedMetric := None, mode := VerifyMode, sheetOpen := true)
  }

  /** A new extraction forgets every decision taken on the metrics before. */
  lemma {:induction false} RunExtractionForgetsDecisions(p: Page, company: Company, metricName: string, s: MetricStatus)
    requires IsDecision(s)
    ensures RunExtraction(p.(metrics := MetricStatusChange(p.metrics, metricName, s)), company)
            == RunExtraction(p, company)
  {
  }

  /** The initial metrics are already unconfirmed, so the reset keeps them as they are. */
  lemma InitialMetricsUnconfirmed()
    ensures ResetStatuses(InitialMetrics) == InitialMetrics
  {
    var r := ResetStatuses(InitialMetrics);
    assert forall i :: 0 <= i < |r| ==> InitialMetrics[i].status == Unconfirmed;
  }

  /** `handleViewReport`: the sheet opens on the report view of the company;
      the metrics and the selected metric are left as they were. */
  function ViewReport(p: Page, company: Company): (r: Page)
    ensures r.selectedCompany == Some(company) && r.sheetOpen && r.mode == ViewReportMode
    ensures r.metrics == p.metrics && r.selectedMetric == p.selectedMetric
    ensures r.companies == p.companies && r.quarters == p.quarters
  {
    p.(selectedCompany := Some(company), mode := ViewReportMode, sheetOpen := true)
  }

  /** Viewing a report between an extraction and its decisions loses nothing. */
  lemma ViewReportKeepsExtraction(p: Page, company: Company, other: Company)
    ensures ViewReport(RunExtraction(p, company), other).metrics == ResetStatuses(InitialMetrics)
    ensures RunExtraction(ViewReport(p, other), company) == RunExtraction(p, company)
  {
  }

  // ---------------------------------------------------------------------
  // Quarter cards
  // ---------------------------------------------------------------------

  /** `latestQuarter` and `previousQuarters`: the head, if any, and `slice(1)`. */
  function SplitQuarters(quarters: seq<Quarters.Quarter>): (r: (Option<Quarters.Quarter>, seq<Quarters.Quarter>))
    ensures r.0.None? <==> quarters == []
    ensures r.0.None? ==> r.1 == []
    ensures r.0.Some? ==> [r.0.value] + r.1 == quarters
  {
    if quarters == [] then (None, []) else (Some(quarters[0]), quarters[1..])
  }

  /** The cards in display order: the latest card, then the previous ones. */
  function JoinQuarters(latest: Option<Quarters.Quarter>, previous: seq<Quarters.Quarter>): (r: seq<Quarters.Quarter>)
    ensures |r| == |previous| + (if latest.Some? then 1 else 0)
    ensures latest.Some? ==> r[0] == latest.value && r[1..] == previous
    ensures latest.None? ==> r == previous
  {
    if latest.Some? then [latest.value] + previous else previous
  }

  /** Every quarter gets exactly one card, in order. */
  lemma SplitJoin(quarters: seq<Quarters.Quarter>)
    ensures var (latest, previous) := SplitQuarters(quarters);
            JoinQuarters(latest, previous) == quarters
  {
  }

  /** Splitting the cards gives back the latest card and the previous ones,
      as long as there is no previous card without a latest one. */
  lemma JoinSplit(latest: Option<Quarters.Quarter>, previous: seq<Quarters.Quarter>)
    requires latest.Some? || previous == []
    ensures SplitQuarters(JoinQuarters(latest, previous)) == (latest, previous)
  {
  }

  /** The companies request of the latest quarter; none without quarters. */
  function CompaniesPath(quarters: seq<Quarters.Quarter>): (r: Option<string>)
    ensures r.None? <==> quarters == []
    ensures r.Some? ==> r.value == "/api/quarters/" + quarters[0].slug + "/companies"
  {
    var (latest, _) := SplitQuarters(quarters);
    if latest.None? then None else Some("/api/quarters/" + latest.value.slug + "/companies")
  }

  // ---------------------------------------------------------------------
  // Template select
  // ---------------------------------------------------------------------

  const NoneValue: string := "none"
  const AddNewValue: string := "add_new"

  /** The select's value: the selected template, or "none" when it is null or empty. */
  function DisplayValue(selected: Option<string>): (v: string)
    ensures Truthy(selected) ==> v == selected.value
    ensures !Truthy(selected) ==> v == NoneValue
    ensures v != ""
  {
    if Truthy(selected) then selected.value else NoneValue
  }

  /** `onValueChange`: `None` when `onSelect` is not called, otherwise the
      argument it is called with. */
  function OnValueChange(value: string): (r: Option<Option<string>>)
    ensures r.None? <==> value == AddNewValue
    ensures r == Some(None) <==> value == NoneValue
    ensures r.Some? && r.value.Some? ==> r.value.value == value
  {
    if value == AddNewValue then None
    else if value == NoneValue then Some(None)
    else Some(Some(value))
  }

  /** Picking the value the select shows reselects the current choice exactly
      when that choice is null or a non-empty name other than the two
      reserved values. */
  lemma SelectRoundTrip(selected: Option<string>)
    ensures OnValueChange(DisplayValue(selected)) == Some(selected)
            <==> selected.None? || (selected.value != "" && selected.value != NoneValue && selected.value != AddNewValue)
  {
  }

  /** A template literally named "none" can never be selected. */
  lemma TemplateNamedNoneUnselectable()
    ensures forall v :: OnValueChange(v) != Some(Some(NoneValue))
  {
  }

  // ---------------------------------------------------------------------
  // New-template dialog
  // ---------------------------------------------------------------------

  datatype Row = Row(metric: string, customInstruction: string)

  datatype RowField = MetricField | InstructionField

  const EmptyRow: Row := Row("", "")

  /** The dialog opens with one empty row. */
  const InitialRows: seq<Row> := [EmptyRow]

  function FieldOf(row: Row, field: RowField): string {
    match field
    case MetricField => row.metric
    case InstructionField => row.customInstruction
  }

  function WithField(row: Row, field: RowField, value: string): (r: Row)
    ensures FieldOf(r, field) == value
    ensures forall f :: f != field ==> FieldOf(r, f) == FieldOf(row, f)
  {
    match field
    case MetricField => row.(metric := value)
    case InstructionField => row.(customInstruction := value)
  }

  /** `addRow`: one empty row at the end. */
  function AddRow(rows: seq<Row>): (r: seq<Row>)
    ensures |r| == |rows| + 1 && r[..|rows|] == rows && r[|rows|] == EmptyRow
  {
    rows + [EmptyRow]
  }

  /** `updateRow`: field `field` of row `index` becomes `value`; every other
      row and the row's other field stay. An index outside the rows changes nothing. */
  function UpdateRow(rows: seq<Row>, index: int, field: RowField, value: string): (r: seq<Row>)
    ensures |r| == |rows|
    ensures forall i :: 0 <= i < |r| && i != index ==> r[i] == rows[i]
    ensures 0 <= index < |rows| ==>
              FieldOf(r[index], field) == value
              && forall f :: f != field ==> FieldOf(r[index], f) == FieldOf(rows[index], f)
  {
    seq(|rows|, i requires 0 <= i < |rows| => if i == index then WithField(rows[i], field, value) else rows[i])
  }

  /** Typing into a field twice keeps only the second text. */
  lemma UpdateRowLastWins(rows: seq<Row>, index: int, field: RowField, v1: string, v2: string)
    ensures UpdateRow(UpdateRow(rows, index, field, v1), index, field, v2) == UpdateRow(rows, index, field, v2)
  {
    var a := UpdateRow(UpdateRow(rows, index, field, v1), index, field, v2);
    var b := UpdateRow(rows, index, field, v2);
    forall i | 0 <= i < |rows| ensures a[i] == b[i] {
      if i == index {
        match field
        case MetricField =>
        case InstructionField =>
      }
    }
  }

  /** Writing back what a field holds changes nothing. */
  lemma UpdateRowUnchanged(rows: seq<Row>, index: int, field: RowField)
    requires 0 <= index < |rows|
    ensures UpdateRow(rows, index, field, FieldOf(rows[index], field)) == rows
  {
    var r := UpdateRow(rows, index, field, FieldOf(rows[index], field));
    forall i | 0 <= i < |rows| ensures r[i] == rows[i] {
      if i == index {
        match field
        case MetricField =>
        case InstructionField =>
      }
    }
  }

  /** `rows.filter((_, i) => i !== index)` over the rows from position `start` on. */
  function KeepOthers(rows: seq<Row>, index: int, start: nat): (r: seq<Row>)
    ensures |r| == if start <= index < start + |rows| then |rows| - 1 else |rows|
    ensures forall x :: x in r ==> x in rows
    decreases |rows|
  {
    if rows == [] then []
    else (if start == index then [] else [rows[0]]) + KeepOthers(rows[1..], index, start + 1)
  }

  /** Away from `index`, filtering keeps every row. */
  lemma {:induction false} KeepOthersAway(rows: seq<Row>, index: int, start: nat)
    requires !(start <= index < start + |rows|)
    ensures KeepOthers(rows, index, start) == rows
    decreases |rows|
  {
    if rows != [] {
      KeepOthersAway(rows[1..], index, start + 1);
      assert [rows[0]] + rows[1..] == rows;
    }
  }

  /** Filtering drops exactly the row at position `index`. */
  lemma {:induction false} KeepOthersSlices(rows: seq<Row>, index: int, start: nat)
    requires start <= index < start + |rows|
    ensures KeepOthers(rows, index, start) == rows[..index - start] + rows[index - start + 1..]
    decreases |rows|
  {
    var tail := KeepOthers(rows[1..], index, start + 1);
    if start == index {
      KeepOthersAway(rows[1..], index, start + 1);
      assert rows[..0] + rows[1..] == rows[1..];
    } else {
      var k := index - start;
      KeepOthersSlices(rows[1..], index, start + 1);
      assert tail == rows[1..][..k - 1] + rows[1..][k..];
      assert rows[..k] == [rows[0]] + rows[1..][..k - 1];
      assert rows[1..][k..] == rows[k + 1..];
    }
  }

  /** The delete button of row `index`: exactly that row goes, the others
      keep their order; an index outside the rows changes nothing. */
  function DeleteRow(rows: seq<Row>, index: int): (r: seq<Row>)
    ensures 0 <= index < |rows| ==> r == rows[..index] + rows[index + 1..]
    ensures !(0 <= index < |rows|) ==> r == rows
  {
    if 0 <= index < |rows| then KeepOthersSlices(rows, index, 0); KeepOthers(rows, index, 0)
    else KeepOthersAway(rows, index, 0); KeepOthers(rows, index, 0)
  }

  /** Deleting a freshly added row undoes the addition. */
  lemma DeleteUndoesAdd(rows: seq<Row>)
    ensures DeleteRow(AddRow(rows), |rows|) == rows
  {
    assert AddRow(rows)[..|rows|] == rows;
  }

  /** The dialog opens with what one `addRow` makes of no rows. Adding a row
      and deleting it again returns to that state, and deleting the only row
      leaves none: nothing keeps the list from becoming empty. */
  lemma InitialRowsEdits()
    ensures InitialRows == AddRow([])
    ensures DeleteRow(AddRow(InitialRows), |InitialRows|) == InitialRows
    ensures DeleteRow(InitialRows, 0) == []
  {
    DeleteUndoesAdd(InitialRows);
  }

  /** Deleting a row keeps every other row's contents: row `i` after the
      deletion is the row that followed it when `i` is at or past `index`. */
  lemma DeleteRowShifts(rows: seq<Row>, index: int, i: int)
    requires 0 <= index < |rows| && 0 <= i < |rows| - 1
    ensures |DeleteRow(rows, index)| == |rows| - 1
    ensures DeleteRow(rows, index)[i] == if i < index then rows[i] else rows[i + 1]
  {
  }

  /** What `saveTemplate` sends. */
  datatype TemplateRequest = TemplateRequest(name: string, metrics: seq<Row>)

  /** `saveTemplate`: nothing is sent while the trimmed name is empty;
      otherwise the trimmed name and the rows as they are. */
  function SaveRequest(templateName: string, rows: seq<Row>): (r: Option<TemplateRequest>)
    ensures r.None? <==> forall m :: 0 <= m < |templateName| ==> IsJsSpace(templateName[m])
    ensures r.Some? ==> (r.value.metrics == rows && r.value.name != []
                         && !IsJsSpace(r.value.name[0]) && !IsJsSpace(r.value.name[|r.value.name| - 1]))
    ensures r.Some? ==> exists i, j :: 0 <= i <= j <= |templateName| && r.value.name == templateName[i..j]
                                       && (forall m :: 0 <= m < i ==> IsJsSpace(templateName[m]))
                                       && (forall m :: j <= m < |templateName| ==> IsJsSpace(templateName[m]))
  {
    var name := Trim(templateName);
    if name == [] then None else Some(TemplateRequest(name, rows))
  }

  /** The name sent is already trimmed: trimming it again leaves it as it is. */
  lemma SavedNameIsTrimmed(templateName: string, rows: seq<Row>)
    ensures var r := SaveRequest(templateName, rows);
            r.Some? ==> Trim(r.value.name) == r.value.name
  {
    var r := SaveRequest(templateName, rows);
    if r.Some? {
      TrimOfTrimmed(r.value.name);
    }
  }
}

=== FILE: metric_templates.dfy ===
/** The metric-template collection handlers: listing template names from the
    JSON blobs under `metric_templates/`, and saving a template (validation,
    choice of the Excel URL, the Excel file's extension and the per-metric
    field normalisation). Storage calls and JSON parsing are inputs: a form
    field's parse outcome and the existing template's `excel_url` are given,
    and the blobs a save writes are returned as a list. */
module MetricTemplates {
  import opened Common
  import UriComponent

  const FolderPrefix: string := "metric_templates/"
  const JsonSuffix: string := ".json"
  const ContainerName: string := "metric-workflow"
  const StorageHost: string := "https://byndpdfstorage.blob.core.windows.net/"
  const DefaultFileName: string := "template.xlsx"
  const DefaultExtension: string := ".xlsx"

  const MissingName: string := "Missing template name"
  const InvalidMetricsJson: string := "Invalid metrics JSON"
  const MetricsRequired: string := "Metrics are required"
  const ExcelRequired: string := "Excel file is required for new templates"

  /** Where a template's JSON lives. */
  function JsonBlobName(name: string): string {
    FolderPrefix + name + JsonSuffix
  }

  // ---------------------------------------------------------------------
  // GET: template names
  // ---------------------------------------------------------------------

  /** `s.substring(start)`, which yields "" when start is past the end. */
  function Substring(s: string, start: nat): string {
    if start <= |s| then s[start..] else []
  }

  /** `file.replace(/\.json$/i, "")`. */
  function StripJsonSuffix(file: string): (r: string)
    ensures EndsWith(file, JsonSuffix) ==> r + JsonSuffix == file
  {
    if |file| >= 5 && Lower(file[|file| - 5..]) == JsonSuffix then file[..|file| - 5] else file
  }

  /** The name the listing loop reports for one blob, if any. */
  function ListedName(blob: string): (r: Option<string>)
    ensures r.Some? ==> '/' !in r.value
  {
    if !EndsWith(blob, JsonSuffix) then None
    else
      var file := Substring(blob, |FolderPrefix|);
      if file != [] && '/' !in file then Some(StripJsonSuffix(file)) else None
  }

  /** Behind the prefix's '/', a blob ending in ".json" leaves a file part
      that ends in ".json" too. */
  lemma FileEndsWithJson(blob: string)
    requires StartsWith(blob, FolderPrefix) && EndsWith(blob, JsonSuffix)
    ensures EndsWith(blob[|FolderPrefix|..], JsonSuffix)
  {
    var file := blob[|FolderPrefix|..];
    assert blob[..|FolderPrefix|][16] == '/';
    assert file[|file| - 5..] == blob[|blob| - 5..];
  }

  lemma PrefixedJson(blob: string, n: string)
    requires StartsWith(blob, FolderPrefix) && n + JsonSuffix == blob[|FolderPrefix|..]
    ensures blob == JsonBlobName(n)
  {
    assert blob == blob[..|FolderPrefix|] + blob[|FolderPrefix|..];
    assert FolderPrefix + (n + JsonSuffix) == FolderPrefix + n + JsonSuffix;
  }

  /** A listed blob under the prefix is exactly the JSON blob of its name. */
  lemma {:induction false} ListedNameInverse(blob: string)
    requires StartsWith(blob, FolderPrefix) && ListedName(blob).Some?
    ensures blob == JsonBlobName(ListedName(blob).value)
  {
    FileEndsWithJson(blob);
    PrefixedJson(blob, StripJsonSuffix(blob[|FolderPrefix|..]));
  }

  /** The ".json" ending is recognised and removed again. */
  lemma JsonSuffixStripped(name: string)
    ensures StripJsonSuffix(name + JsonSuffix) == name
  {
    var file := name + JsonSuffix;
    assert file[|file| - 5..] == JsonSuffix;
    assert NoUpper(JsonSuffix);
    LowerOfLowerCase(JsonSuffix);
    assert file[..|file| - 5] == name;
  }

  /** The JSON blob of a name is the prefix, then the file part. */
  lemma JsonBlobParts(name: string)
    ensures StartsWith(JsonBlobName(name), FolderPrefix)
    ensures EndsWith(JsonBlobName(name), JsonSuffix)
    ensures Substring(JsonBlobName(name), |FolderPrefix|) == name + JsonSuffix
  {
    var blob := JsonBlobName(name);
    assert blob == FolderPrefix + (name + JsonSuffix);
    assert blob[..|FolderPrefix|] == FolderPrefix;
    assert blob[|blob| - 5..] == JsonSuffix;
    assert blob[|FolderPrefix|..] == name + JsonSuffix;
  }

  /** The JSON blob of a name without '/' is listed under that very name. */
  lemma {:induction false} JsonBlobListedBack(name: string)
    requires '/' !in name
    ensures StartsWith(JsonBlobName(name), FolderPrefix)
    ensures ListedName(JsonBlobName(name)) == Some(name)
  {
    JsonBlobParts(name);
    JsonSuffixStripped(name);
    assert '/' !in name + JsonSuffix;
  }

  /** Two names without '/' never share a listed blob. */
  lemma ListedNameUnique(blob: string)
    requires StartsWith(blob, FolderPrefix) && ListedName(blob).Some?
    ensures forall n :: '/' !in n && JsonBlobName(n) == blob ==> n == ListedName(blob).value
  {
    forall n | '/' !in n && JsonBlobName(n) == blob ensures n == ListedName(blob).value {
      JsonBlobListedBack(n);
    }
  }

  /** A blob the loop skips is the JSON blob of no name without '/'. */
  lemma SkippedBlobNamesNothing(blob: string)
    requires !(StartsWith(blob, FolderPrefix) && ListedName(blob).Some?)
    ensures forall n :: '/' !in n ==> JsonBlobName(n) != blob
  {
    forall n | '/' !in n ensures JsonBlobName(n) != blob {
      JsonBlobListedBack(n);
    }
  }

  /** What one blob under the prefix contributes to the listing. */
  function BlobNames(blob: string): (names: seq<string>)
    ensures |names| <= 1
    ensures forall n :: n in names ==> '/' !in n && JsonBlobName(n) == blob
    ensures forall n :: '/' !in n && JsonBlobName(n) == blob ==> names == [n]
  {
    if StartsWith(blob, FolderPrefix) && ListedName(blob).Some? then
      ListedNameInverse(blob);
      ListedNameUnique(blob);
      [ListedName(blob).value]
    else
      SkippedBlobNamesNothing(blob);
      []
  }

  /** `GET /api/metric-templates`: `listBlobsFlat({prefix})` followed by the
      loop; `container` lists every blob name in storage order. */
  function ListTemplateNames(container: seq<string>): (names: seq<string>)
    ensures |names| <= |container|
    ensures forall n :: n in names ==> '/' !in n && JsonBlobName(n) in container
    ensures forall n :: '/' !in n && JsonBlobName(n) in container ==> n in names
  {
    if container == [] then []
    else
      assert forall n :: JsonBlobName(n) in container ==> JsonBlobName(n) == container[0] || JsonBlobName(n) in container[1..];
      BlobNames(container[0]) + ListTemplateNames(container[1..])
  }

  /** The listing walks the blobs in storage order: the names of a
      concatenation are the names of its parts, one after the other. */
  lemma {:induction false} ListTemplateNamesConcat(a: seq<string>, b: seq<string>)
    ensures ListTemplateNames(a + b) == ListTemplateNames(a) + ListTemplateNames(b)
    decreases |a|
  {
    if a == [] {
      assert a + b == b;
    } else {
      assert (a + b)[0] == a[0];
      assert (a + b)[1..] == a[1..] + b;
      ListTemplateNamesConcat(a[1..], b);
    }
  }

  // ---------------------------------------------------------------------
  // POST: saving a template
  // ---------------------------------------------------------------------

  /** One metric as posted; each field is a string or absent (`None`). */
  datatype MetricIn = MetricIn(metric: Option<string>, customInstruction: Option<string>,
                               docUrl: Option<string>, pdfBlobUrl: Option<string>,
                               sheetName: Option<string>)

  /** One metric as persisted. */
  datatype MetricOut = MetricOut(metric: Option<string>, customInstruction: Option<string>,
                                 pdfBlobUrl: string, sheetName: string)

  /** Outcome of `JSON.parse` on the metrics field. */
  datatype MetricsJson = Unparsable | NotAnArray | MetricArray(items: seq<MetricIn>)

  /** The `metrics` form field: absent, or a string with its parse outcome. */
  datatype MetricsField = NoMetricsField | MetricsText(raw: string, parsed: MetricsJson)

  /** The uploaded `excel` file; only its name matters to the model. */
  datatype ExcelFile = ExcelFile(fileName: string)

  datatype PostForm = PostForm(name: Option<string>, metrics: MetricsField, excel: Option<ExcelFile>)

  datatype TemplateContent = TemplateContent(excelUrl: string, metrics: seq<MetricOut>)

  datatype BlobWrite = ExcelUpload(blobName: string) | TemplateUpload(blobName: string, content: TemplateContent)

  datatype PostOutcome = BadRequest(error: string) | Saved(excelUrl: string, writes: seq<BlobWrite>)

  /** `a || b || ""` over optional strings. */
  function FirstTruthy(a: Option<string>, b: Option<string>): (r: string)
    ensures Truthy(a) ==> r == a.value
    ensures !Truthy(a) && Truthy(b) ==> r == b.value
    ensures !Truthy(a) && !Truthy(b) ==> r == ""
  {
    if Truthy(a) then a.value else if Truthy(b) then b.value else ""
  }

  function NormaliseMetric(m: MetricIn): MetricOut {
    MetricOut(m.metric, m.customInstruction, FirstTruthy(m.pdfBlobUrl, m.docUrl), FirstTruthy(m.sheetName, None))
  }

  /** `metricsWithDoc`: same length and order; the document URL prefers
      `pdf_blob_url` over `docUrl`; every other field is dropped. */
  function NormaliseMetrics(ms: seq<MetricIn>): (r: seq<MetricOut>)
    ensures |r| == |ms|
    ensures forall i :: 0 <= i < |ms| ==>
              && r[i].metric == ms[i].metric
              && r[i].customInstruction == ms[i].customInstruction
              && r[i].pdfBlobUrl == FirstTruthy(ms[i].pdfBlobUrl, ms[i].docUrl)
              && (Truthy(ms[i].sheetName) ==> r[i].sheetName == ms[i].sheetName.value)
              && (!Truthy(ms[i].sheetName) ==> r[i].sheetName == "")
  {
    if ms == [] then [] else [NormaliseMetric(ms[0])] + NormaliseMetrics(ms[1..])
  }

  /** A persisted metric read back as posted input. */
  function Reposted(m: MetricOut): MetricIn {
    MetricIn(m.metric, m.customInstruction, None, Some(m.pdfBlobUrl), Some(m.sheetName))
  }

  /** Re-saving a saved template's metrics leaves them as they are. */
  lemma {:induction false} NormaliseIdempotent(ms: seq<MetricIn>)
    ensures var once := NormaliseMetrics(ms);
            NormaliseMetrics(seq(|once|, i requires 0 <= i < |once| => Reposted(once[i]))) == once
  {
    var once := NormaliseMetrics(ms);
    var again := NormaliseMetrics(seq(|once|, i requires 0 <= i < |once| => Reposted(once[i])));
    assert |again| == |once|;
    forall i | 0 <= i < |once| ensures again[i] == once[i] {
    }
  }

  predicate DotAlnumTail(s: string, i: nat) {
    i + 1 < |s| && s[i] == '.' && forall m :: i < m < |s| ==> IsAlnum(s[m])
  }

  /** Start of the longest all-alphanumeric suffix of `s[..j]`. */
  function AlnumRunStart(s: string, j: nat): (k: nat)
    requires j <= |s|
    ensures k <= j
    ensures forall m :: k <= m < j ==> IsAlnum(s[m])
    ensures k == 0 || !IsAlnum(s[k - 1])
  {
    if j > 0 && IsAlnum(s[j - 1]) then AlnumRunStart(s, j - 1) else j
  }

  /** `/\.[A-Za-z0-9]+$/.exec(originalName)`, or ".xlsx" without a match. */
  function Extension(fileName: string): (ext: string)
    ensures |ext| >= 2 && ext[0] == '.'
    ensures ext == DefaultExtension || EndsWith(fileName, ext)
    ensures forall i: nat :: DotAlnumTail(fileName, i) ==> ext == fileName[i..]
    ensures (forall i: nat :: !DotAlnumTail(fileName, i)) ==> ext == DefaultExtension
  {
    var k := AlnumRunStart(fileName, |fileName|);
    if 0 < k < |fileName| && fileName[k - 1] == '.' then
      assert DotAlnumTail(fileName, k - 1);
      assert forall i: nat :: DotAlnumTail(fileName, i) ==> i == k - 1 by {
        forall i: nat | DotAlnumTail(fileName, i) ensures i == k - 1 {
        }
      }
      fileName[k - 1..]
    else
      assert forall i: nat :: !DotAlnumTail(fileName, i) by {
        forall i: nat | DotAlnumTail(fileName, i) ensures false {
        }
      }
      DefaultExtension
  }

  /** The public URL of an uploaded Excel blob: one encoded path segment
      right under the container. */
  function ExcelUrl(blobName: string): (url: string)
    ensures StartsWith(url, StorageHost + ContainerName + "/")
    ensures url[|StorageHost + ContainerName + "/"|..] == UriComponent.Encode(blobName)
    ensures '/' !in url[|StorageHost + ContainerName + "/"|..]
  {
    UriComponent.NoSlashAfterEncoding(blobName);
    var base := StorageHost + ContainerName + "/";
    var url := base + UriComponent.Encode(blobName);
    assert url[|base|..] == UriComponent.Encode(blobName);
    url
  }

  /** `String(form.get("name") || "").trim()`. */
  function PostedName(form: PostForm): string {
    if form.name.Some? then Trim(form.name.value) else ""
  }

  /** `String(form.get("metrics") || "")` parsed with `|| "[]"`. */
  function ParsedMetrics(f: MetricsField): MetricsJson {
    if f.NoMetricsField? || f.raw == "" then MetricArray([]) else f.parsed
  }

  /** `excel.name || "template.xlsx"`. */
  function UploadedFileName(excel: ExcelFile): string {
    if excel.fileName != "" then excel.fileName else DefaultFileName
  }

  /** Where an uploaded Excel file is stored: the template's name followed
      by the upload's extension, under the templates folder. */
  function ExcelBlobName(name: string, excel: ExcelFile): string {
    FolderPrefix + name + Extension(UploadedFileName(excel))
  }

  /** The blob writes that precede the template JSON: the Excel upload, if
      any. It lands in the templates folder under the template's name, and
      it is the blob that the URL persisted with the template names. */
  function ExcelUploads(name: string, excel: Option<ExcelFile>): (w: seq<BlobWrite>)
    ensures w == [] <==> excel.None?
    ensures excel.Some? ==>
              && |w| == 1 && w[0].ExcelUpload?
              && StartsWith(w[0].blobName, FolderPrefix + name)
              && FinalExcelUrl(name, excel, None) == Some(ExcelUrl(w[0].blobName))
  {
    if excel.Some? then [ExcelUpload(ExcelBlobName(name, excel.value))] else []
  }

  /** The Excel URL the template will carry: a new upload's URL, otherwise
      the one already stored. */
  function FinalExcelUrl(name: string, excel: Option<ExcelFile>, existingExcelUrl: Option<string>): (url: Option<string>)
    ensures excel.Some? ==> Truthy(url) && url.value == ExcelUrl(ExcelBlobName(name, excel.value))
    ensures excel.None? ==> url == existingExcelUrl
  {
    if excel.Some? then Some(ExcelUrl(ExcelBlobName(name, excel.value))) else existingExcelUrl
  }

  /** `POST /api/metric-templates`; `existingExcelUrl` is the string
      `excel_url` of the template's current JSON, `None` when that blob is
      missing or unreadable or the field is not a string. */
  function SaveTemplate(form: PostForm, existingExcelUrl: Option<string>): (r: PostOutcome)
    ensures PostedName(form) == [] ==> r == BadRequest(MissingName)
    ensures PostedName(form) != [] && ParsedMetrics(form.metrics).Unparsable? ==> r == BadRequest(InvalidMetricsJson)
    ensures PostedName(form) != [] && ParsedMetrics(form.metrics) in {NotAnArray, MetricArray([])} ==> r == BadRequest(MetricsRequired)
    ensures r.Saved? ==>
              var name := PostedName(form);
              var ms := ParsedMetrics(form.metrics);
              && name != [] && ms.MetricArray? && |ms.items| > 0
              && |r.writes| >= 1
              && r.writes[|r.writes| - 1] == TemplateUpload(JsonBlobName(name), TemplateContent(r.excelUrl, NormaliseMetrics(ms.items)))
              && r.excelUrl != ""
    ensures r.Saved? && form.excel.Some? ==>
              var excelBlob := ExcelBlobName(PostedName(form), form.excel.value);
              |r.writes| == 2 && r.writes[0] == ExcelUpload(excelBlob) && r.excelUrl == ExcelUrl(excelBlob)
    ensures r.Saved? && form.excel.None? ==> Some(r.excelUrl) == existingExcelUrl && |r.writes| == 1
    ensures r.BadRequest? && r.error == ExcelRequired ==> form.excel.None? && !Truthy(existingExcelUrl)
    ensures var ms := ParsedMetrics(form.metrics);
            PostedName(form) != [] && ms.MetricArray? && |ms.items| > 0 ==>
              (r.Saved? <==> form.excel.Some? || Truthy(existingExcelUrl))
    ensures var ms := ParsedMetrics(form.metrics);
            (PostedName(form) != [] && ms.MetricArray? && |ms.items| > 0
             && form.excel.None? && !Truthy(existingExcelUrl)) ==> r == BadRequest(ExcelRequired)
  {
    var name := PostedName(form);
    var ms := ParsedMetrics(form.metrics);
    if name == [] then BadRequest(MissingName)
    else if ms.Unparsable? then BadRequest(InvalidMetricsJson)
    else if !ms.MetricArray? || |ms.items| == 0 then BadRequest(MetricsRequired)
    else SaveValidated(name, ms.items, form.excel, FinalExcelUrl(name, form.excel, existingExcelUrl))
  }

  /** The part of the save after validation: the Excel URL must be truthy,
      then the Excel upload (if any) and the template JSON are written. */
  function SaveValidated(name: string, items: seq<MetricIn>, excel: Option<ExcelFile>, url: Option<string>): (r: PostOutcome)
    ensures !Truthy(url) <==> r == BadRequest(ExcelRequired)
    ensures Truthy(url) ==> r.Saved? && r.excelUrl == url.value
  {
    if !Truthy(url) then BadRequest(ExcelRequired)
    else
      var json := TemplateUpload(JsonBlobName(name), TemplateContent(url.value, NormaliseMetrics(items)));
      Saved(url.value, ExcelUploads(name, excel) + [json])
  }

  /** A freshly uploaded Excel file wins whatever the stored template says. */
  lemma UploadWins(form: PostForm, e1: Option<string>, e2: Option<string>)
    requires form.excel.Some?
    ensures SaveTemplate(form, e1) == SaveTemplate(form, e2)
  {
    var name := PostedName(form);
    assert FinalExcelUrl(name, form.excel, e1) == FinalExcelUrl(name, form.excel, e2);
  }

  /** Writing the JSON blob of a name without '/' puts that name in the listing. */
  lemma JsonBlobIsListed(name: string, blob: string, container: seq<string>)
    requires '/' !in name && blob == JsonBlobName(name)
    ensures name in ListTemplateNames(container + [blob])
  {
    assert blob in container + [blob];
  }

  /** The last blob a save writes is the template's JSON blob. */
  lemma SavedJsonBlob(form: PostForm, existing: Option<string>)
    ensures var r := SaveTemplate(form, existing);
            r.Saved? ==> |r.writes| >= 1 && r.writes[|r.writes| - 1].blobName == JsonBlobName(PostedName(form))
  {
  }

  /** A template saved under a name without '/' shows up in the listing. */
  lemma SavedTemplateIsListed(form: PostForm, existing: Option<string>, container: seq<string>)
    ensures var r := SaveTemplate(form, existing);
            r.Saved? && '/' !in PostedName(form) ==>
              PostedName(form) in ListTemplateNames(container + [r.writes[|r.writes| - 1].blobName])
  {
    var r := SaveTemplate(form, existing);
    if r.Saved? && '/' !in PostedName(form) {
      SavedJsonBlob(form, existing);
      JsonBlobIsListed(PostedName(form), r.writes[|r.writes| - 1].blobName, container);
    }
  }
}

=== FILE: pdf_highlight.dfy ===
/** Citation highlight of the PDF viewer: the Fitz-to-PDF flip, the render
    scale, the padded overlay rectangle, the single-entry style cache, the two
    places that fill it (the highlight effect and the page-load callback) and
    the rule that decides on which rendered page the overlay appears.

    The pdf.js viewport is taken to be the rotation-0 map of a page whose view
    box starts at the origin: a user-space point (x, y) lands on screen at
    (x * s, (H - y) * s), H being the page height and s the render scale. */
module PdfHighlight {
  import opened Common

  /** Screen pixels added around every citation rectangle. */
  const Padding: real := 4.0

  /** Four numbers [x0, y0, x1, y1]; the corners may come in any order. */
  datatype Rect = Rect(x0: real, y0: real, x1: real, y1: real)

  /** The native page box of a loaded page: view[2] and view[3]. */
  datatype PageView = PageView(width: real, height: real)

  /** A page box as pdf.js reports it: its width is positive. */
  type PageBox = p: PageView | p.width > 0.0 witness PageView(1.0, 1.0)

  /** The geometric part of the overlay's inline style. */
  datatype Style = Style(left: real, top: real, width: real, height: real)

  /** Citation to draw: 1-based page number and Fitz coordinates. */
  datatype Highlight = Highlight(page: int, coords: Rect)

  function Min(a: real, b: real): real { if a <= b then a else b }

  function Max(a: real, b: real): real { if a <= b then b else a }

  function Abs(a: real): real { if a < 0.0 then -a else a }

  /** Fitz coordinates grow downwards, PDF user space upwards:
      [x0, y0, x1, y1] becomes [x0, H - y1, x1, H - y0]. */
  function FitzToPdf(c: Rect, pageHeight: real): (r: Rect)
    ensures r.x0 == c.x0 && r.x1 == c.x1
    ensures r.y0 + c.y1 == pageHeight && r.y1 + c.y0 == pageHeight
  {
    Rect(c.x0, pageHeight - c.y1, c.x1, pageHeight - c.y0)
  }

  /** The flip is its own inverse. */
  lemma FitzToPdfInvolution(c: Rect, pageHeight: real)
    ensures FitzToPdf(FitzToPdf(c, pageHeight), pageHeight) == c
  {
  }

  /** `width / view[2]`: the scale at which the page fills `width` pixels. */
  function RenderScale(width: real, page: PageBox): (s: real)
    ensures s * page.width == width
    ensures width > 0.0 ==> s > 0.0
    ensures width == 0.0 ==> s == 0.0
  {
    width / page.width
  }

  /** `convertToViewportRectangle` under the rotation-0 assumption: both
      corners go through (x, y) |-> (x * s, (H - y) * s). */
  function ToViewport(p: Rect, page: PageBox, scale: real): Rect {
    Rect(p.x0 * scale, (page.height - p.y0) * scale,
         p.x1 * scale, (page.height - p.y1) * scale)
  }

  /** The padded, normalised overlay around viewport corners [vx1, vy1, vx2, vy2]:
      it contains the corner rectangle with exactly `Padding` to spare on each side. */
  function Overlay(v: Rect): (st: Style)
    ensures st.left + Padding == Min(v.x0, v.x1)
    ensures st.left + st.width - Padding == Max(v.x0, v.x1)
    ensures st.top + Padding == Min(v.y0, v.y1)
    ensures st.top + st.height - Padding == Max(v.y0, v.y1)
    ensures st.width >= 2.0 * Padding && st.height >= 2.0 * Padding
  {
    Style(Min(v.x0, v.x1) - Padding, Min(v.y0, v.y1) - Padding,
          Abs(v.x0 - v.x1) + Padding * 2.0, Abs(v.y0 - v.y1) + Padding * 2.0)
  }

  /** Naming the corners in the other order gives the same overlay. */
  lemma OverlayCornerOrder(v: Rect)
    ensures Overlay(Rect(v.x1, v.y1, v.x0, v.y0)) == Overlay(v)
    ensures Overlay(Rect(v.x1, v.y0, v.x0, v.y1)) == Overlay(v)
    ensures Overlay(Rect(v.x0, v.y1, v.x1, v.y0)) == Overlay(v)
  {
  }

  lemma MinScale(a: real, b: real, s: real)
    requires s >= 0.0
    ensures Min(a * s, b * s) == Min(a, b) * s
  {
    if a <= b {
      MulNonNegative(b - a, s);
      assert (b - a) * s == b * s - a * s;
    } else {
      MulNonNegative(a - b, s);
      assert (a - b) * s == a * s - b * s;
    }
  }

  lemma MulNonNegative(x: real, y: real)
    requires x >= 0.0 && y >= 0.0
    ensures x * y >= 0.0
  {
  }

  lemma AbsScale(a: real, b: real, s: real)
    requires s >= 0.0
    ensures Abs(a * s - b * s) == Abs(a - b) * s
  {
    assert a * s - b * s == (a - b) * s;
    if a - b < 0.0 {
      MulNonNegative(b - a, s);
      assert (b - a) * s == -((a - b) * s);
    } else {
      MulNonNegative(a - b, s);
    }
  }

  /** The overlay of a rectangle scaled by a non-negative factor. */
  lemma {:induction false} OverlayOfScaled(c: Rect, s: real)
    requires s >= 0.0
    ensures var st := Overlay(Rect(c.x0 * s, c.y1 * s, c.x1 * s, c.y0 * s));
            && st.left == Min(c.x0, c.x1) * s - Padding
            && st.top == Min(c.y0, c.y1) * s - Padding
            && st.width == Abs(c.x0 - c.x1) * s + 2.0 * Padding
            && st.height == Abs(c.y0 - c.y1) * s + 2.0 * Padding
  {
    MinScale(c.x0, c.x1, s);
    MinScale(c.y0, c.y1, s);
    assert Min(c.y1 * s, c.y0 * s) == Min(c.y0 * s, c.y1 * s);
    AbsScale(c.x0, c.x1, s);
    AbsScale(c.y0, c.y1, s);
    assert Abs(c.y1 * s - c.y0 * s) == Abs(c.y0 * s - c.y1 * s);
  }

  /** Flipping to PDF space and through the viewport lands on the Fitz
      corners scaled by `s`, with the y coordinates swapped. */
  lemma ViewportOfFlip(c: Rect, page: PageBox, s: real)
    ensures ToViewport(FitzToPdf(c, page.height), page, s)
            == Rect(c.x0 * s, c.y1 * s, c.x1 * s, c.y0 * s)
  {
    var H := page.height;
    assert H - (H - c.y1) == c.y1 && H - (H - c.y0) == c.y0;
  }

  /** Under the rotation-0 viewport the two flips cancel: the overlay is the
      Fitz rectangle scaled by the render scale and padded by 4 pixels. */
  lemma {:induction false} FlipsCancel(page: PageBox, width: real, coords: Rect)
    requires width >= 0.0
    ensures var s := width / page.width;
            var st := Overlay(ToViewport(FitzToPdf(coords, page.height), page, RenderScale(width, page)));
            && st.left == Min(coords.x0, coords.x1) * s - Padding
            && st.top == Min(coords.y0, coords.y1) * s - Padding
            && st.width == Abs(coords.x0 - coords.x1) * s + 2.0 * Padding
            && st.height == Abs(coords.y0 - coords.y1) * s + 2.0 * Padding
  {
    var s := RenderScale(width, page);
    assert s == width / page.width;
    ViewportOfFlip(coords, page, s);
    OverlayOfScaled(coords, s);
  }

  /** The style both the highlight effect and the page-load callback compute
      for a page drawn `width` pixels wide: the Fitz rectangle scaled by
      width / view[2] and padded by 4 pixels. */
  function HighlightStyle(page: PageBox, width: real, coords: Rect): (st: Style)
    ensures width >= 0.0 ==>
              var s := width / page.width;
              && st.left == Min(coords.x0, coords.x1) * s - Padding
              && st.top == Min(coords.y0, coords.y1) * s - Padding
              && st.width == Abs(coords.x0 - coords.x1) * s + 2.0 * Padding
              && st.height == Abs(coords.y0 - coords.y1) * s + 2.0 * Padding
  {
    var st := Overlay(ToViewport(FitzToPdf(coords, page.height), page, RenderScale(width, page)));
    if width >= 0.0 then FlipsCancel(page, width, coords); st else st
  }

  /** Per-page style cache; the source keys it by 1-based page number. */
  type Styles = map<int, Style>

  /** `updateHighlightStyle`: the cache afterwards holds the given page only. */
  function UpdateHighlightStyle(page: int, style: Style): (m: Styles)
    ensures m.Keys == {page}
    ensures m[page] == style
  {
    map[page := style]
  }

  /** A width is usable when it is present and not 0 (JavaScript truthiness). */
  predicate TruthyWidth(w: Option<real>) {
    w.Some? && w.value != 0.0
  }

  /** The viewer's mutable state: loaded page boxes by 0-based index, the width
      latched at the last page load, and the highlight-style cache. */
  datatype Viewer = Viewer(proxies: map<int, PageBox>, latestWidth: Option<real>, styles: Styles)

  /** `latestPageWidthRef.current ?? pageWidth`. */
  function EffectWidth(latest: Option<real>, pageWidth: Option<real>): (w: Option<real>)
    ensures latest.Some? ==> w == latest
    ensures latest.None? ==> w == pageWidth
  {
    if latest.Some? then latest else pageWidth
  }

  /** The effect that recomputes the highlight when the highlight or the
      container width changes. */
  function RecomputeHighlight(v: Viewer, highlight: Option<Highlight>, pageWidth: Option<real>): (v': Viewer)
    ensures v'.proxies == v.proxies && v'.latestWidth == v.latestWidth
    ensures highlight.None? ==> v'.styles == map[]
    ensures highlight.Some? ==>
              var h := highlight.value;
              var w := EffectWidth(v.latestWidth, pageWidth);
              if h.page - 1 in v.proxies && TruthyWidth(w) then
                v'.styles.Keys == {h.page}
                && v'.styles[h.page] == HighlightStyle(v.proxies[h.page - 1], w.value, h.coords)
              else v'.styles == v.styles
  {
    match highlight
    case None => v.(styles := map[])
    case Some(h) =>
      var idx := h.page - 1;
      var width := EffectWidth(v.latestWidth, pageWidth);
      if idx !in v.proxies || !TruthyWidth(width) then v
      else v.(styles := UpdateHighlightStyle(h.page, HighlightStyle(v.proxies[idx], width.value, h.coords)))
  }

  /** Page `idx` reports its geometry: it is stored, the current width is
      latched, and the highlight is drawn at once if it is on this page. */
  function PageLoaded(v: Viewer, idx: int, page: PageBox, highlight: Option<Highlight>,
                      pageWidth: Option<real>): (v': Viewer)
    ensures v'.proxies == v.proxies[idx := page]
    ensures v'.latestWidth == pageWidth
    ensures if highlight.Some? && highlight.value.page == idx + 1 && TruthyWidth(pageWidth) then
              v'.styles.Keys == {idx + 1}
              && v'.styles[idx + 1] == HighlightStyle(page, pageWidth.value, highlight.value.coords)
            else v'.styles == v.styles
  {
    var v1 := v.(proxies := v.proxies[idx := page], latestWidth := pageWidth);
    if highlight.Some? && highlight.value.page == idx + 1 && TruthyWidth(pageWidth) then
      v1.(styles := UpdateHighlightStyle(idx + 1, HighlightStyle(page, pageWidth.value, highlight.value.coords)))
    else v1
  }

  /** The two places that compute the overlay agree: once the highlighted page
      has loaded, re-running the effect with the same width changes nothing. */
  lemma {:induction false} PathsAgree(v: Viewer, idx: int, page: PageBox, h: Highlight, pageWidth: Option<real>)
    requires h.page == idx + 1 && TruthyWidth(pageWidth)
    ensures var loaded := PageLoaded(v, idx, page, Some(h), pageWidth);
            RecomputeHighlight(loaded, Some(h), pageWidth) == loaded
  {
    var loaded := PageLoaded(v, idx, page, Some(h), pageWidth);
    assert loaded.proxies[idx] == page;
    assert EffectWidth(loaded.latestWidth, pageWidth) == pageWidth;
    var again := RecomputeHighlight(loaded, Some(h), pageWidth);
    assert again.styles.Keys == loaded.styles.Keys;
  }

  /** Once a width has been latched by a page load, the effect ignores the
      current container width altogether. */
  lemma LatchedWidthWins(v: Viewer, highlight: Option<Highlight>, w1: Option<real>, w2: Option<real>)
    requires v.latestWidth.Some?
    ensures RecomputeHighlight(v, highlight, w1) == RecomputeHighlight(v, highlight, w2)
  {
  }

  /** The overlay element on the page with 0-based index `idx`, if any. */
  function OverlayAt(idx: int, highlight: Option<Highlight>, styles: Styles): (r: Option<Style>)
    ensures r.Some? <==> highlight.Some? && highlight.value.page == idx + 1 && idx + 1 in styles
    ensures r.Some? ==> r.value == styles[idx + 1]
  {
    if highlight.Some? && highlight.value.page == idx + 1 && highlight.value.page in styles
    then Some(styles[highlight.value.page]) else None
  }

  /** At most one page ever shows an overlay. */
  lemma SingleOverlay(i: int, j: int, highlight: Option<Highlight>, styles: Styles)
    requires OverlayAt(i, highlight, styles).Some? && OverlayAt(j, highlight, styles).Some?
    ensures i == j
  {
  }

  /** Every cached style belongs to a page that has loaded. */
  predicate StylesOnLoadedPages(v: Viewer) {
    forall k :: k in v.styles ==> k - 1 in v.proxies
  }

  /** The effect and the load callback keep the cache on loaded pages, so
      every viewer reached from the empty one satisfies it. */
  lemma StylesStayOnLoadedPages(v: Viewer, highlight: Option<Highlight>, pageWidth: Option<real>,
                                idx: int, page: PageBox)
    requires StylesOnLoadedPages(v)
    ensures StylesOnLoadedPages(Viewer(map[], None, map[]))
    ensures StylesOnLoadedPages(RecomputeHighlight(v, highlight, pageWidth))
    ensures StylesOnLoadedPages(PageLoaded(v, idx, page, highlight, pageWidth))
  {
  }

  /** A highlight on a page that has not loaded shows nothing until the page
      loads; the load alone then makes the overlay appear on that page. */
  lemma {:induction false} OverlayAppearsOnLoad(v: Viewer, h: Highlight, pageWidth: Option<real>, page: PageBox)
    requires h.page - 1 !in v.proxies
    requires StylesOnLoadedPages(v)
    requires TruthyWidth(pageWidth)
    ensures var v1 := RecomputeHighlight(v, Some(h), pageWidth);
            && (forall i :: OverlayAt(i, Some(h), v1.styles).None?)
            && OverlayAt(h.page - 1, Some(h), PageLoaded(v1, h.page - 1, page, Some(h), pageWidth).styles)
               == Some(HighlightStyle(page, pageWidth.value, h.coords))
  {
    var v1 := RecomputeHighlight(v, Some(h), pageWidth);
    assert h.page !in v1.styles;
    var v2 := PageLoaded(v1, h.page - 1, page, Some(h), pageWidth);
    assert h.page in v2.styles;
  }
}

=== FILE: pdf_scroll.dfy ===
/** Page navigation of the PDF viewer: the guard of `scrollToTarget`, the
    page callbacks that call it, and the `tryScroll` retry chain the scroll
    effect starts. Timing is not modelled: a retry is one more run of the
    chain, and what a run observes is the page-element snapshot of that run. */
module ScrollRetry {
  import opened Common

  /** Retries a chain may schedule after its first run. */
  const MaxAttempts: nat := 10

  /** A mounted page element and its measured height. */
  datatype PageElement = PageElement(offsetHeight: int)

  /** `pageRefs.current`: mounted page elements by 0-based index. */
  type Refs = map<int, PageElement>

  /** `scrollToTarget`: the 0-based index of the element scrolled into view. */
  function ScrollToTarget(targetPage: Option<int>, numPages: Option<nat>, refs: Refs): (r: Option<int>)
    ensures r.Some? <==> targetPage.Some? && numPages.Some? && targetPage.value - 1 in refs
    ensures r.Some? ==> r.value + 1 == targetPage.value
  {
    if targetPage.None? || numPages.None? then None
    else if targetPage.value - 1 in refs then Some(targetPage.value - 1)
    else None
  }

  /** The load and render callbacks of page `idx` scroll only when that page
      is the 1-based target. */
  function ScrollOnPageEvent(idx: int, targetPage: Option<int>, numPages: Option<nat>, refs: Refs): (r: Option<int>)
    ensures r.Some? ==> r.value == idx && targetPage == Some(idx + 1)
    ensures targetPage == Some(idx + 1) && numPages.Some? && idx in refs ==> r == Some(idx)
    ensures r.Some? <==> targetPage == Some(idx + 1) && numPages.Some? && idx in refs
  {
    if targetPage.Some? && targetPage.value == idx + 1 then ScrollToTarget(targetPage, numPages, refs)
    else None
  }

  /** Run `k` of a chain finds the element at `idx` mounted with positive height. */
  predicate ReadyAt(snapshots: seq<Refs>, k: nat, idx: int) {
    k < |snapshots| && idx in snapshots[k] && snapshots[k][idx].offsetHeight > 0
  }

  /** How a chain ended: how many runs it made and whether the last one scrolled. */
  datatype ScrollRun = ScrollRun(runs: nat, scrolled: bool)

  /** `tryScroll` entered with `attempts` retries already used: it scrolls as
      soon as a run sees the element ready, and otherwise schedules another
      run while fewer than `MaxAttempts` retries have been used. */
  function Retry(attempts: nat, idx: int, snapshots: seq<Refs>): (r: ScrollRun)
    requires attempts <= MaxAttempts
    ensures attempts < r.runs <= MaxAttempts + 1
    ensures forall k :: attempts <= k < r.runs - 1 ==> !ReadyAt(snapshots, k, idx)
    ensures r.scrolled <==> ReadyAt(snapshots, r.runs - 1, idx)
    ensures !r.scrolled ==> r.runs == MaxAttempts + 1
    decreases MaxAttempts - attempts
  {
    if ReadyAt(snapshots, attempts, idx) then ScrollRun(attempts + 1, true)
    else if attempts < MaxAttempts then Retry(attempts + 1, idx, snapshots)
    else ScrollRun(attempts + 1, false)
  }

  /** The scroll effect, re-run whenever the target page, the page count or
      the scroll signal changes. */
  function ScrollEffect(targetPage: Option<int>, numPages: Option<nat>, snapshots: seq<Refs>): (r: ScrollRun)
    ensures r.runs == 0 <==> targetPage.None? || targetPage.value <= 0 || numPages.None?
    ensures r.runs <= MaxAttempts + 1
    ensures r.runs > 0 ==>
              var idx := targetPage.value - 1;
              && (forall k: nat :: k < r.runs - 1 ==> !ReadyAt(snapshots, k, idx))
              && (r.scrolled <==> ReadyAt(snapshots, r.runs - 1, idx))
              && (!r.scrolled ==> r.runs == MaxAttempts + 1)
  {
    if targetPage.None? || targetPage.value <= 0 || numPages.None? then ScrollRun(0, false)
    else Retry(0, targetPage.value - 1, snapshots)
  }

  /** Run `k` is the first, within the chain's reach, to find the page ready. */
  predicate FirstReadyAt(snapshots: seq<Refs>, idx: int, k: nat) {
    && k <= MaxAttempts
    && ReadyAt(snapshots, k, idx)
    && forall j: nat :: j < k ==> !ReadyAt(snapshots, j, idx)
  }

  /** The chain for the page at 0-based `idx` scrolls exactly when some run
      within the bound finds the page ready, and it stops at the first such run. */
  lemma EffectStopsAtFirstReady(idx: nat, numPages: nat, snapshots: seq<Refs>)
    ensures var r := ScrollEffect(Some(idx + 1), Some(numPages), snapshots);
            && (r.scrolled <==> exists k: nat :: k <= MaxAttempts && ReadyAt(snapshots, k, idx))
            && (forall k: nat :: FirstReadyAt(snapshots, idx, k) ==> r.runs == k + 1)
            && ((forall k: nat :: k <= MaxAttempts ==> !ReadyAt(snapshots, k, idx)) ==> r.runs == MaxAttempts + 1)
  {
    var r := ScrollEffect(Some(idx + 1), Some(numPages), snapshots);
    if r.scrolled {
      assert ReadyAt(snapshots, r.runs - 1, idx);
    }
    forall k: nat | FirstReadyAt(snapshots, idx, k) ensures r.runs == k + 1 {
      if !r.scrolled {
        assert k < r.runs - 1 || k == r.runs - 1;
      }
    }
  }

  /** A retry scheduled by some chain: the element it will look at and the
      retries its chain has used so far. */
  datatype Timer = Timer(pageIdx: int, attempts: nat)

  predicate ValidTimers(pending: seq<Timer>) {
    forall i :: 0 <= i < |pending| ==> 1 <= pending[i].attempts <= MaxAttempts
  }

  /** Runs a timer may still make before its chain gives up. */
  function Budget(pending: seq<Timer>): int {
    if pending == [] then 0
    else (MaxAttempts + 1 - pending[0].attempts) + Budget(pending[1..])
  }

  lemma {:induction false} BudgetConcat(a: seq<Timer>, b: seq<Timer>)
    ensures Budget(a + b) == Budget(a) + Budget(b)
    decreases |a|
  {
    if a == [] {
      assert a + b == b;
    } else {
      assert (a + b)[0] == a[0];
      assert (a + b)[1..] == a[1..] + b;
      BudgetConcat(a[1..], b);
    }
  }

  lemma {:induction false} BudgetNonNegative(pending: seq<Timer>)
    requires ValidTimers(pending)
    ensures Budget(pending) >= 0
    decreases |pending|
  {
    if pending != [] {
      BudgetNonNegative(pending[1..]);
    }
  }

  /** The effect runs `tryScroll` once at once and, if the page is not ready,
      schedules a retry. Earlier chains keep their timers: nothing is cancelled. */
  function Launch(pending: seq<Timer>, targetPage: Option<int>, numPages: Option<nat>, refs: Refs): (p': seq<Timer>)
    ensures |pending| <= |p'| <= |pending| + 1 && p'[..|pending|] == pending
    ensures |p'| == |pending| + 1 <==>
              targetPage.Some? && targetPage.value > 0 && numPages.Some?
              && !ReadyAt([refs], 0, targetPage.value - 1)
    ensures |p'| == |pending| + 1 ==> p'[|pending|] == Timer(targetPage.value - 1, 1)
    ensures ValidTimers(pending) ==> ValidTimers(p')
  {
    if targetPage.None? || targetPage.value <= 0 || numPages.None? then pending
    else if ReadyAt([refs], 0, targetPage.value - 1) then pending
    else pending + [Timer(targetPage.value - 1, 1)]
  }

  /** Timer `i` fires: its run scrolls if the element is ready, and otherwise
      schedules the next retry unless its chain has used up `MaxAttempts`. */
  function Fire(pending: seq<Timer>, i: nat, refs: Refs): (p': seq<Timer>)
    requires i < |pending|
    ensures |pending| - 1 <= |p'| <= |pending|
    ensures p'[..|pending| - 1] == pending[..i] + pending[i + 1..]
    ensures |p'| == |pending| <==>
              !ReadyAt([refs], 0, pending[i].pageIdx) && pending[i].attempts < MaxAttempts
    ensures |p'| == |pending| ==> p'[|pending| - 1] == Timer(pending[i].pageIdx, pending[i].attempts + 1)
    ensures ValidTimers(pending) ==> ValidTimers(p')
    ensures ValidTimers(pending) ==> Budget(p') < Budget(pending)
  {
    var t := pending[i];
    var rest := pending[..i] + pending[i + 1..];
    assert pending == pending[..i] + [t] + pending[i + 1..];
    BudgetConcat(pending[..i] + [t], pending[i + 1..]);
    BudgetConcat(pending[..i], [t]);
    BudgetConcat(pending[..i], pending[i + 1..]);
    assert Budget([t]) == MaxAttempts + 1 - t.attempts by {
      assert [t][1..] == [];
    }
    if ReadyAt([refs], 0, t.pageIdx) || t.attempts >= MaxAttempts then rest
    else
      var next := Timer(t.pageIdx, t.attempts + 1);
      BudgetConcat(rest, [next]);
      assert Budget([next]) == MaxAttempts - t.attempts by {
        assert [next][1..] == [];
      }
      rest + [next]
  }
}

=== FILE: quarters.dfy ===
/** The quarters listing: fiscal-quarter folders of the storage container
    become `{title, slug, description}` records, latest quarter first. The
    regular expressions of the handler are written out as scanners over
    characters; case-insensitivity is ASCII case-insensitivity. */
module Quarters {
  import opened Common

  // ---------------------------------------------------------------------
  // Slug: lower-case, every maximal white-space run replaced by one '-'
  // ---------------------------------------------------------------------

  /** Replace each maximal run of white space by a single '-'. */
  function CollapseSpaces(s: string): (r: string)
    ensures |r| <= |s|
    decreases |s|
  {
    if s == [] then []
    else if IsJsSpace(s[0]) then "-" + CollapseSpaces(s[SkipSpaces(s, 0)..])
    else [s[0]] + CollapseSpaces(s[1..])
  }

  /** Collapsing leaves no white space. */
  lemma {:induction false} CollapseNoSpace(s: string)
    ensures NoSpace(CollapseSpaces(s))
    decreases |s|
  {
    if s != [] {
      if IsJsSpace(s[0]) { CollapseAtSpace(s); } else { CollapseAtChar(s); }
      var h, t := if IsJsSpace(s[0]) then '-' else s[0], if IsJsSpace(s[0]) then s[SkipSpaces(s, 0)..] else s[1..];
      CollapseNoSpace(t);
      ConsNoSpace(h, CollapseSpaces(t));
    }
  }

  lemma ConsNoSpace(h: char, t: string)
    requires !IsJsSpace(h) && NoSpace(t)
    ensures NoSpace([h] + t)
  {
    forall m | 0 <= m < |[h] + t| ensures !IsJsSpace(([h] + t)[m]) {
      if m > 0 {
        assert ([h] + t)[m] == t[m - 1];
      }
    }
  }

  lemma ConsNoUpper(h: char, t: string)
    requires !IsUpper(h) && NoUpper(t)
    ensures NoUpper([h] + t)
  {
    forall m | 0 <= m < |[h] + t| ensures !IsUpper(([h] + t)[m]) {
      if m > 0 {
        assert ([h] + t)[m] == t[m - 1];
      }
    }
  }

  lemma DropNoUpper(s: string, k: nat)
    requires k <= |s| && NoUpper(s)
    ensures NoUpper(s[k..])
  {
    forall m | 0 <= m < |s[k..]| ensures !IsUpper(s[k..][m]) {
      assert s[k..][m] == s[k + m];
    }
  }

  /** Collapsing adds no capital letter. */
  lemma {:induction false} CollapseNoUpper(s: string)
    requires NoUpper(s)
    ensures NoUpper(CollapseSpaces(s))
    decreases |s|
  {
    if s != [] {
      if IsJsSpace(s[0]) { CollapseAtSpace(s); } else { CollapseAtChar(s); }
      var h, k := if IsJsSpace(s[0]) then '-' else s[0], if IsJsSpace(s[0]) then SkipSpaces(s, 0) else 1;
      DropNoUpper(s, k);
      CollapseNoUpper(s[k..]);
      ConsNoUpper(h, CollapseSpaces(s[k..]));
    }
  }

  /** Text without white space comes through the collapse unchanged. */
  lemma {:induction false} CollapseWithoutSpace(s: string)
    requires NoSpace(s)
    ensures CollapseSpaces(s) == s
    decreases |s|
  {
    if s != [] {
      assert !IsJsSpace(s[0]);
      CollapseAtChar(s);
      DropNoSpace(s, 1);
      CollapseWithoutSpace(s[1..]);
      assert [s[0]] + s[1..] == s;
    }
  }

  lemma DropNoSpace(s: string, k: nat)
    requires k <= |s| && NoSpace(s)
    ensures NoSpace(s[k..])
  {
    forall m | 0 <= m < |s[k..]| ensures !IsJsSpace(s[k..][m]) {
      assert s[k..][m] == s[k + m];
    }
  }

  /** Collapsing leaves no white space and adds no capital; text without
      white space comes through unchanged. */
  lemma CollapseSpacesShape(s: string)
    ensures NoSpace(CollapseSpaces(s))
    ensures NoUpper(s) ==> NoUpper(CollapseSpaces(s))
    ensures NoSpace(s) ==> CollapseSpaces(s) == s
  {
    CollapseNoSpace(s);
    if NoUpper(s) {
      CollapseNoUpper(s);
    }
    if NoSpace(s) {
      CollapseWithoutSpace(s);
    }
  }

  /** `toSlug`: `title.toLowerCase().replace(/\s+/g, "-")`. */
  function Slug(title: string): (r: string)
    ensures NoSpace(r) && NoUpper(r)
    ensures |r| <= |title|
    ensures NoSpace(title) ==> r == Lower(title)
  {
    LowerKeepsNoSpace(title);
    CollapseSpacesShape(Lower(title));
    CollapseSpaces(Lower(title))
  }

  /** Lower-casing neither adds nor removes white space. */
  lemma LowerKeepsNoSpace(s: string)
    ensures NoSpace(Lower(s)) <==> NoSpace(s)
  {
    var l := Lower(s);
    assert forall i :: 0 <= i < |s| ==> (IsJsSpace(l[i]) <==> IsJsSpace(s[i]));
  }

  /** A slug is its own slug. */
  lemma {:induction false} SlugIdempotent(title: string)
    ensures Slug(Slug(title)) == Slug(title)
  {
    LowerOfLowerCase(Slug(title));
    CollapseSpacesShape(Slug(title));
  }

  lemma {:induction false} SkipSpacesAppend(a: string, c: string, i: nat)
    requires i <= |a| && SkipSpaces(a, i) < |a|
    ensures SkipSpaces(a + c, i) == SkipSpaces(a, i)
    decreases |a| - i
  {
    assert (a + c)[i] == a[i];
    if IsJsSpace(a[i]) {
      SkipSpacesAppend(a, c, i + 1);
    }
  }

  /** Unfolding `CollapseSpaces` at a leading white-space run. */
  lemma CollapseAtSpace(s: string)
    requires s != [] && IsJsSpace(s[0])
    ensures CollapseSpaces(s) == "-" + CollapseSpaces(s[SkipSpaces(s, 0)..])
  {
  }

  /** Unfolding `CollapseSpaces` at a leading non-space character. */
  lemma CollapseAtChar(s: string)
    requires s != [] && !IsJsSpace(s[0])
    ensures CollapseSpaces(s) == [s[0]] + CollapseSpaces(s[1..])
  {
  }

  /** One step of `CollapseAppend` at a leading white-space run of `a`. */
  lemma CollapseAppendSpace(a: string, c: string)
    requires a != [] && IsJsSpace(a[0]) && !IsJsSpace(a[|a| - 1])
    requires CollapseSpaces(a[SkipSpaces(a, 0)..] + c)
             == CollapseSpaces(a[SkipSpaces(a, 0)..]) + CollapseSpaces(c)
    ensures CollapseSpaces(a + c) == CollapseSpaces(a) + CollapseSpaces(c)
  {
    var ac, k := a + c, SkipSpaces(a, 0);
    assert ac[0] == a[0];
    SkipSpacesAppend(a, c, 0);
    assert ac[k..] == a[k..] + c;
    CollapseAtSpace(ac);
    CollapseAtSpace(a);
  }

  /** One step of `CollapseAppend` at a leading non-space character of `a`. */
  lemma CollapseAppendChar(a: string, c: string)
    requires a != [] && !IsJsSpace(a[0])
    requires CollapseSpaces(a[1..] + c) == CollapseSpaces(a[1..]) + CollapseSpaces(c)
    ensures CollapseSpaces(a + c) == CollapseSpaces(a) + CollapseSpaces(c)
  {
    var ac := a + c;
    assert ac[0] == a[0] && ac[1..] == a[1..] + c;
    CollapseAtChar(ac);
    CollapseAtChar(a);
    ConsAssoc(a[0], CollapseSpaces(a[1..]), CollapseSpaces(c));
  }

  lemma ConsAssoc(h: char, x: string, y: string)
    ensures [h] + (x + y) == ([h] + x) + y
  {
  }

  /** Collapsing distributes over a cut that does not split a white-space run. */
  lemma {:induction false} CollapseAppend(a: string, c: string)
    requires a == [] || !IsJsSpace(a[|a| - 1])
    ensures CollapseSpaces(a + c) == CollapseSpaces(a) + CollapseSpaces(c)
    decreases |a|
  {
    if a == [] {
      assert a + c == c;
    } else if IsJsSpace(a[0]) {
      var k := SkipSpaces(a, 0);
      assert a[k..][|a[k..]| - 1] == a[|a| - 1];
      CollapseAppend(a[k..], c);
      CollapseAppendSpace(a, c);
    } else {
      assert a[1..] == [] || a[1..][|a[1..]| - 1] == a[|a| - 1];
      CollapseAppend(a[1..], c);
      CollapseAppendChar(a, c);
    }
  }

  lemma {:induction false} SkipAllSpaces(w: string, b: string, i: nat)
    requires i <= |w|
    requires forall m :: 0 <= m < |w| ==> IsJsSpace(w[m])
    requires b == [] || !IsJsSpace(b[0])
    ensures SkipSpaces(w + b, i) == |w|
    decreases |w| - i
  {
    if i < |w| {
      assert (w + b)[i] == w[i];
      SkipAllSpaces(w, b, i + 1);
    } else if b != [] {
      assert (w + b)[i] == b[0];
    }
  }

  /** A white-space run between two words collapses to one '-'. */
  lemma {:induction false} CollapseRun(a: string, w: string, b: string)
    requires a == [] || !IsJsSpace(a[|a| - 1])
    requires |w| > 0 && forall m :: 0 <= m < |w| ==> IsJsSpace(w[m])
    requires b == [] || !IsJsSpace(b[0])
    ensures CollapseSpaces(a + (w + b)) == CollapseSpaces(a) + ("-" + CollapseSpaces(b))
  {
    CollapseAppend(a, w + b);
    var wb := w + b;
    assert wb[0] == w[0];
    SkipAllSpaces(w, b, 0);
    assert wb[|w|..] == b;
    CollapseAtSpace(wb);
  }

  /** Lower-casing keeps the white-space boundaries of `a + w + b`. */
  lemma LowerRun(a: string, w: string, b: string)
    requires a == [] || !IsJsSpace(a[|a| - 1])
    requires |w| > 0 && forall m :: 0 <= m < |w| ==> IsJsSpace(w[m])
    requires b == [] || !IsJsSpace(b[0])
    ensures Lower(a) == [] || !IsJsSpace(Lower(a)[|a| - 1])
    ensures |Lower(w)| > 0 && forall m :: 0 <= m < |w| ==> IsJsSpace(Lower(w)[m])
    ensures Lower(b) == [] || !IsJsSpace(Lower(b)[0])
  {
    if a != [] {
      assert Lower(a)[|a| - 1] == LowerChar(a[|a| - 1]);
    }
    forall m | 0 <= m < |w| ensures IsJsSpace(Lower(w)[m]) {
      assert Lower(w)[m] == LowerChar(w[m]);
    }
    if b != [] {
      assert Lower(b)[0] == LowerChar(b[0]);
    }
  }

  lemma LowerSplit(a: string, w: string, b: string)
    ensures Lower(a + w + b) == Lower(a) + (Lower(w) + Lower(b))
  {
    assert a + w + b == a + (w + b);
    LowerConcat(a, w + b);
    LowerConcat(w, b);
  }

  lemma JoinWithDash(x: string, y: string)
    ensures x + ("-" + y) == x + "-" + y
  {
  }

  lemma {:induction false} LowerCollapseRun(a: string, w: string, b: string)
    requires a == [] || !IsJsSpace(a[|a| - 1])
    requires |w| > 0 && forall m :: 0 <= m < |w| ==> IsJsSpace(w[m])
    requires b == [] || !IsJsSpace(b[0])
    ensures CollapseSpaces(Lower(a + w + b))
            == CollapseSpaces(Lower(a)) + "-" + CollapseSpaces(Lower(b))
  {
    LowerSplit(a, w, b);
    LowerRun(a, w, b);
    CollapseRun(Lower(a), Lower(w), Lower(b));
    JoinWithDash(CollapseSpaces(Lower(a)), CollapseSpaces(Lower(b)));
  }

  /** `toSlug` turns a white-space run between two words into exactly one '-'. */
  lemma {:induction false} SlugSpaceRun(a: string, w: string, b: string)
    requires a == [] || !IsJsSpace(a[|a| - 1])
    requires |w| > 0 && forall m :: 0 <= m < |w| ==> IsJsSpace(w[m])
    requires b == [] || !IsJsSpace(b[0])
    ensures Slug(a + w + b) == Slug(a) + "-" + Slug(b)
  {
    LowerCollapseRun(a, w, b);
  }

  // ---------------------------------------------------------------------
  // The pattern /FY(\d{2})(?:\s*Q(\d))?/i
  // ---------------------------------------------------------------------

  predicate IsF(c: char) { c == 'F' || c == 'f' }

  predicate IsY(c: char) { c == 'Y' || c == 'y' }

  predicate IsQ(c: char) { c == 'Q' || c == 'q' }

  /** "FY" and two digits start at position i. */
  predicate FyAt(s: string, i: nat) {
    i + 4 <= |s| && IsF(s[i]) && IsY(s[i + 1]) && IsDigit(s[i + 2]) && IsDigit(s[i + 3])
  }

  /** Leftmost position at or after `from` where the pattern can start. */
  function FindFy(s: string, from: nat): (r: Option<nat>)
    requires from <= |s|
    ensures r.Some? ==> from <= r.value && FyAt(s, r.value)
    ensures forall j: nat :: from <= j && (r.None? || j < r.value) ==> !FyAt(s, j)
    decreases |s| - from
  {
    if from + 4 > |s| then None
    else if FyAt(s, from) then Some(from)
    else FindFy(s, from + 1)
  }

  /** The leftmost position where "FY" and two digits occur is the one
      the search finds. */
  lemma LeftmostIsFound(s: string)
    ensures forall i: nat :: FyAt(s, i) && (forall j: nat :: j < i ==> !FyAt(s, j)) ==> FindFy(s, 0) == Some(i)
  {
    forall i: nat | FyAt(s, i) && (forall j: nat :: j < i ==> !FyAt(s, j))
      ensures FindFy(s, 0) == Some(i)
    {
      var r := FindFy(s, 0);
      assert r.Some? && FyAt(s, r.value);
    }
  }

  /** Capture groups of a match: the two year digits and the quarter digit. */
  datatype FyMatch = FyMatch(year: string, quarter: Option<char>)

  /** The optional `\s*Q(\d)` group, tried right after the year digits. */
  function QuarterAfter(s: string, k: nat): (q: Option<char>)
    requires k <= |s|
    ensures q.Some? ==> IsDigit(q.value)
  {
    var j := SkipSpaces(s, k);
    if j + 1 < |s| && IsQ(s[j]) && IsDigit(s[j + 1]) then Some(s[j + 1]) else None
  }

  /** `title.match(/FY(\d{2})(?:\s*Q(\d))?/i)`. */
  function MatchFy(s: string): (m: Option<FyMatch>)
    ensures m.None? <==> forall j: nat :: !FyAt(s, j)
    ensures m.Some? ==> |m.value.year| == 2 && IsDigit(m.value.year[0]) && IsDigit(m.value.year[1])
    ensures forall i: nat :: FyAt(s, i) && (forall j: nat :: j < i ==> !FyAt(s, j)) ==>
              m == Some(FyMatch(s[i + 2..i + 4], QuarterAfter(s, i + 4)))
  {
    match FindFy(s, 0)
    case None => None
    case Some(i) => Some(FyMatch(s[i + 2..i + 4], QuarterAfter(s, i + 4)))
  }

  /** `getDescription`. */
  function Description(title: string): (d: string)
    ensures d == [] <==> MatchFy(title).None?
  {
    match MatchFy(title)
    case None => ""
    case Some(m) =>
      if m.quarter.Some? then "Financial Year 20" + m.year + " - Quarter " + [m.quarter.value]
      else "Financial Year 20" + m.year
  }

  // ---------------------------------------------------------------------
  // Folder names kept by the handler: /^FY\d{2}(?:\sQ\d)?$/i and no '%'
  // ---------------------------------------------------------------------

  predicate IsQuarterName(n: string) {
    || (|n| == 4 && FyAt(n, 0))
    || (|n| == 7 && FyAt(n, 0) && IsJsSpace(n[4]) && IsQ(n[5]) && IsDigit(n[6]))
  }

  predicate Keep(n: string) {
    '%' !in n && IsQuarterName(n)
  }

  /** The '%' filter never removes a name the pattern accepts. */
  lemma PercentCheckRedundant(n: string)
    requires IsQuarterName(n)
    ensures Keep(n)
  {
  }

  /** Descriptions of the two accepted shapes, "FYyy" and "FYyy Qq". */
  lemma {:induction false} DescriptionOfQuarterName(n: string)
    requires IsQuarterName(n)
    ensures |n| == 4 ==> Description(n) == "Financial Year 20" + n[2..4]
    ensures |n| == 7 ==> Description(n) == "Financial Year 20" + n[2..4] + " - Quarter " + [n[6]]
  {
    assert FindFy(n, 0) == Some(0);
    if |n| == 7 {
      assert SkipSpaces(n, 4) == 5 by {
        assert SkipSpaces(n, 5) == 5;
      }
    }
  }

  /** The sort key of a folder name is read off its digits: the two year
      digits as a decimal number, and the quarter digit (0 for "FYyy"). */
  lemma {:induction false} ParseKeyOfQuarterName(n: string)
    requires IsQuarterName(n)
    ensures ParseKey(n) == Key(10 * DigitValue(n[2]) + DigitValue(n[3]),
                               if |n| == 7 then DigitValue(n[6]) else 0)
  {
    assert FindFy(n, 0) == Some(0);
    if |n| == 7 {
      assert SkipSpaces(n, 4) == 5 by {
        assert SkipSpaces(n, 5) == 5;
      }
    }
    assert n[2..4][0] == n[2] && n[2..4][1] == n[3];
  }

  /** The folder slug of a quarter name: "FY24" gives "fy24" and "FY24 Q1"
      gives "fy24-q1". */
  lemma {:induction false} SlugOfQuarterName(n: string)
    requires IsQuarterName(n)
    ensures |n| == 4 ==> Slug(n) == Lower(n)
    ensures |n| == 7 ==> Slug(n) == Lower(n[..4]) + "-" + Lower(n[5..])
  {
    var a := n[..4];
    assert NoSpace(a) by {
      assert forall m :: 0 <= m < |a| ==> a[m] == n[m];
    }
    if |n| == 4 {
      assert n == a;
    } else {
      var w, b := n[4..5], n[5..];
      assert n == a + w + b;
      assert NoSpace(b) by {
        assert b[0] == n[5] && b[1] == n[6];
      }
      assert w[0] == n[4];
      SlugSpaceRun(a, w, b);
    }
  }

  /** A title in which the pattern occurs nowhere has the empty description. */
  lemma NoMatchNoDescription(title: string)
    requires forall j: nat :: !FyAt(title, j)
    ensures Description(title) == ""
  {
  }

  // ---------------------------------------------------------------------
  // Ordering: `sortQuarters`
  // ---------------------------------------------------------------------

  datatype Key = Key(year: nat, quarter: nat)

  /** The inner `parse`: year and quarter as numbers, 0 when absent. */
  function ParseKey(q: string): (k: Key)
    ensures k.year <= 99 && k.quarter <= 9
    ensures MatchFy(q).None? ==> k == Key(0, 0)
    ensures forall i: nat :: FyAt(q, i) && (forall j: nat :: j < i ==> !FyAt(q, j)) ==>
              k.year == 10 * DigitValue(q[i + 2]) + DigitValue(q[i + 3])
    ensures forall i: nat :: FyAt(q, i) && (forall j: nat :: j < i ==> !FyAt(q, j)) ==>
              var j := SkipSpaces(q, i + 4);
              k.quarter == if j + 1 < |q| && IsQ(q[j]) && IsDigit(q[j + 1]) then DigitValue(q[j + 1]) else 0
  {
    match MatchFy(q)
    case None => Key(0, 0)
    case Some(m) =>
      var k := Key(DigitValue(m.year[0]) * 10 + DigitValue(m.year[1]),
                   if m.quarter.Some? then DigitValue(m.quarter.value) else 0);
      KeyAtLeftmost(q, k);
      k
  }

  /** The key built from a match's captures holds the digits found at the
      leftmost "FY" + two digits. */
  lemma KeyAtLeftmost(q: string, k: Key)
    requires MatchFy(q).Some?
    requires k.year == DigitValue(MatchFy(q).value.year[0]) * 10 + DigitValue(MatchFy(q).value.year[1])
    requires k.quarter == if MatchFy(q).value.quarter.Some? then DigitValue(MatchFy(q).value.quarter.value) else 0
    ensures forall i: nat :: FyAt(q, i) && (forall j: nat :: j < i ==> !FyAt(q, j)) ==>
              k.year == 10 * DigitValue(q[i + 2]) + DigitValue(q[i + 3])
    ensures forall i: nat :: FyAt(q, i) && (forall j: nat :: j < i ==> !FyAt(q, j)) ==>
              var j := SkipSpaces(q, i + 4);
              k.quarter == if j + 1 < |q| && IsQ(q[j]) && IsDigit(q[j + 1]) then DigitValue(q[j + 1]) else 0
  {
    LeftmostIsFound(q);
  }

  /** The comparator handed to `Array.prototype.sort`. */
  function Compare(q1: string, q2: string): (r: int)
    ensures r == 0 <==> ParseKey(q1) == ParseKey(q2)
    ensures r < 0 <==> ParseKey(q1).year > ParseKey(q2).year
                       || (ParseKey(q1).year == ParseKey(q2).year && ParseKey(q1).quarter > ParseKey(q2).quarter)
  {
    var a := ParseKey(q1);
    var b := ParseKey(q2);
    if a.year != b.year then b.year - a.year else b.quarter - a.quarter
  }

  /** A single number that orders quarters the way the comparator does. */
  function Rank(q: string): nat {
    ParseKey(q).year * 10 + ParseKey(q).quarter
  }

  /** The comparator's sign is the sign of the rank difference: it is
      antisymmetric, transitive, and returns 0 exactly on equal keys. */
  lemma {:induction false} CompareIsRankOrder(a: string, b: string)
    ensures Compare(a, b) < 0 <==> Rank(a) > Rank(b)
    ensures Compare(a, b) == 0 <==> ParseKey(a) == ParseKey(b)
    ensures ParseKey(a) == ParseKey(b) <==> Rank(a) == Rank(b)
    ensures Compare(a, b) == -Compare(b, a)
  {
    var ka, kb := ParseKey(a), ParseKey(b);
    if ka.year < kb.year {
      assert Rank(a) <= ka.year * 10 + 9 < kb.year * 10 <= Rank(b);
    } else if kb.year < ka.year {
      assert Rank(b) <= kb.year * 10 + 9 < ka.year * 10 <= Rank(a);
    }
  }

  lemma {:induction false} CompareTransitive(a: string, b: string, c: string)
    requires Compare(a, b) <= 0 && Compare(b, c) <= 0
    ensures Compare(a, c) <= 0
  {
    CompareIsRankOrder(a, b);
    CompareIsRankOrder(b, c);
    CompareIsRankOrder(a, c);
  }

  /** A year-only folder sorts after every quarter of that year but "Q0". */
  lemma {:induction false} YearOnlyAfterItsQuarters(y: string, q: string)
    requires IsQuarterName(y) && |y| == 4
    requires IsQuarterName(q) && |q| == 7 && q[6] != '0'
    requires y[2..4] == q[2..4]
    ensures Compare(y, q) > 0
  {
    DescriptionOfQuarterName(y);
    DescriptionOfQuarterName(q);
    assert FindFy(y, 0) == Some(0) && FindFy(q, 0) == Some(0);
    assert SkipSpaces(q, 4) == 5 by {
      assert SkipSpaces(q, 5) == 5;
    }
    assert y[2] == q[2] && y[3] == q[3] by {
      assert y[2..4][0] == y[2] && q[2..4][0] == q[2];
      assert y[2..4][1] == y[3] && q[2..4][1] == q[3];
    }
  }

  /** Names with no match rank as year 0, quarter 0, after everything else. */
  lemma UnparseableRanksLast(a: string, b: string)
    requires MatchFy(a).None?
    ensures Compare(b, a) <= 0
  {
  }

  /** Non-increasing by `key`. */
  predicate SortedBy(key: string -> nat, s: seq<string>) {
    forall i, j :: 0 <= i < j < |s| ==> key(s[i]) >= key(s[j])
  }

  predicate SortedLatestFirst(s: seq<string>) {
    SortedBy(Rank, s)
  }

  /** A latest-first sequence never has the comparator ask for a swap. */
  lemma {:induction false} SortedAgreesWithCompare(s: seq<string>, i: nat, j: nat)
    requires SortedLatestFirst(s) && i < j < |s|
    ensures Compare(s[i], s[j]) <= 0
  {
    CompareIsRankOrder(s[i], s[j]);
  }

  /** No element of `t` has a larger key than `h`. */
  predicate KeyAtMost(key: string -> nat, h: string, t: seq<string>) {
    forall i :: 0 <= i < |t| ==> key(t[i]) <= key(h)
  }

  lemma SortedCons(key: string -> nat, h: string, t: seq<string>)
    requires SortedBy(key, t) && KeyAtMost(key, h, t)
    ensures SortedBy(key, [h] + t)
  {
    var r := [h] + t;
    forall i, j | 0 <= i < j < |r| ensures key(r[i]) >= key(r[j]) {
      assert r[j] == t[j - 1];
      if i > 0 {
        assert r[i] == t[i - 1];
      }
    }
  }

  /** A bound on every element of `s` and on `x` bounds any rearrangement of them. */
  lemma KeyAtMostPermutation(key: string -> nat, h: string, x: string, s: seq<string>, r: seq<string>)
    requires KeyAtMost(key, h, s) && key(x) <= key(h)
    requires multiset(r) == multiset(s) + multiset{x}
    ensures KeyAtMost(key, h, r)
  {
    forall i | 0 <= i < |r| ensures key(r[i]) <= key(h) {
      assert r[i] in multiset(r);
      if r[i] != x {
        assert r[i] in multiset(s);
        var k :| 0 <= k < |s| && s[k] == r[i];
      }
    }
  }

  /** Insert `x` in front of the first element with a key not above its own. */
  function InsertBy(key: string -> nat, x: string, s: seq<string>): (r: seq<string>)
    requires SortedBy(key, s)
    ensures SortedBy(key, r)
    ensures multiset(r) == multiset(s) + multiset{x}
  {
    if s == [] then [x]
    else if key(x) >= key(s[0]) then
      SortedCons(key, x, s);
      [x] + s
    else
      assert s == [s[0]] + s[1..];
      var tail := InsertBy(key, x, s[1..]);
      assert KeyAtMost(key, s[0], s[1..]);
      KeyAtMostPermutation(key, s[0], x, s[1..], tail);
      SortedCons(key, s[0], tail);
      [s[0]] + tail
  }

  /** Insertion sort by a key, largest key first. */
  function SortBy(key: string -> nat, s: seq<string>): (r: seq<string>)
    ensures SortedBy(key, r)
    ensures multiset(r) == multiset(s)
  {
    if s == [] then []
    else
      assert s == [s[0]] + s[1..];
      InsertBy(key, s[0], SortBy(key, s[1..]))
  }

  /** `filtered.sort(sortQuarters)`: a latest-first permutation. */
  function SortQuarters(s: seq<string>): (r: seq<string>)
    ensures SortedLatestFirst(r)
    ensures multiset(r) == multiset(s)
  {
    SortBy(Rank, s)
  }

  /** The elements of `s` whose key is `v`, in their order in `s`. */
  function KeyClass(key: string -> nat, v: nat, s: seq<string>): (r: seq<string>)
    ensures forall x :: x in r <==> x in s && key(x) == v
    ensures |r| <= |s|
  {
    if s == [] then []
    else
      assert s == [s[0]] + s[1..];
      if key(s[0]) == v then [s[0]] + KeyClass(key, v, s[1..]) else KeyClass(key, v, s[1..])
  }

  /** Inserting `x` puts it in front of every element with the same key. */
  lemma {:induction false} InsertByKeyClass(key: string -> nat, v: nat, x: string, s: seq<string>)
    requires SortedBy(key, s)
    ensures KeyClass(key, v, InsertBy(key, x, s))
            == if key(x) == v then [x] + KeyClass(key, v, s) else KeyClass(key, v, s)
  {
    if s == [] {
    } else if key(x) >= key(s[0]) {
      assert InsertBy(key, x, s) == [x] + s;
      assert ([x] + s)[1..] == s;
    } else {
      var tail := InsertBy(key, x, s[1..]);
      assert InsertBy(key, x, s) == [s[0]] + tail;
      assert ([s[0]] + tail)[1..] == tail;
      InsertByKeyClass(key, v, x, s[1..]);
      if key(s[0]) == v {
        assert key(x) != v;
      }
    }
  }

  /** The sort is stable: the elements of one key keep their input order. */
  lemma {:induction false} SortByStable(key: string -> nat, v: nat, s: seq<string>)
    ensures KeyClass(key, v, SortBy(key, s)) == KeyClass(key, v, s)
  {
    if s != [] {
      SortByStable(key, v, s[1..]);
      InsertByKeyClass(key, v, s[0], SortBy(key, s[1..]));
    }
  }

  /** Names of equal rank come out of the sort in the order they went in, as
      with the stable `Array.prototype.sort` and a comparator that returns 0. */
  lemma SortQuartersStable(s: seq<string>, v: nat)
    ensures KeyClass(Rank, v, SortQuarters(s)) == KeyClass(Rank, v, s)
  {
    SortByStable(Rank, v, s);
  }

  // ---------------------------------------------------------------------
  // Listing the container and building the records
  // ---------------------------------------------------------------------

  /** An entry of the hierarchical listing: a virtual folder or a blob. */
  datatype ListItem = FolderPrefix(name: string) | BlobEntry(name: string)

  /** `name.replace(/\/$/, "")`: at most one trailing '/' goes. */
  function StripTrailingSlash(n: string): (r: string)
    ensures |n| > 0 && n[|n| - 1] == '/' ==> r + "/" == n
    ensures !(|n| > 0 && n[|n| - 1] == '/') ==> r == n
  {
    if |n| > 0 && n[|n| - 1] == '/' then n[..|n| - 1] else n
  }

  /** The folder an entry contributes, if any. */
  function FolderName(item: ListItem): (r: Option<string>)
    ensures r.Some? ==> r.value != [] && item.FolderPrefix?
    ensures item.FolderPrefix? && StripTrailingSlash(item.name) != [] ==> r == Some(StripTrailingSlash(item.name))
  {
    if item.FolderPrefix? && StripTrailingSlash(item.name) != [] then Some(StripTrailingSlash(item.name))
    else None
  }

  ghost predicate Distinct(s: seq<string>) {
    forall x :: multiset(s)[x] <= 1
  }

  lemma AppendFresh(names: seq<string>, v: string)
    requires Distinct(names) && v !in names
    ensures Distinct(names + [v])
    ensures forall x :: x in names + [v] <==> x in names || x == v
  {
    assert multiset(names + [v]) == multiset(names) + multiset{v};
  }

  /** Folder `x` turns up in the listing before folder `y` first does. */
  ghost predicate SeenBefore(items: seq<ListItem>, x: string, y: string) {
    exists k :: 0 <= k < |items| && FolderName(items[k]) == Some(x)
                && forall m :: 0 <= m <= k ==> FolderName(items[m]) != Some(y)
  }

  /** The names of `s` are in the order the listing first shows them. */
  ghost predicate InSeenOrder(items: seq<ListItem>, s: seq<string>) {
    forall a, b :: 0 <= a < b < |s| ==> SeenBefore(items, s[a], s[b])
  }

  /** The listing loop with its `Set`: folder names in first-seen order,
      each once, empty names dropped. */
  method CollectFolders(items: seq<ListItem>) returns (names: seq<string>)
    ensures Distinct(names)
    ensures forall x :: x in names <==> exists k :: 0 <= k < |items| && FolderName(items[k]) == Some(x)
    ensures forall x :: x in names ==> x != []
    ensures InSeenOrder(items, names)
  {
    names := [];
    var i := 0;
    while i < |items|
      invariant 0 <= i <= |items|
      invariant Distinct(names)
      invariant forall x :: x in names <==> exists k :: 0 <= k < i && FolderName(items[k]) == Some(x)
      invariant InSeenOrder(items, names)
    {
      var f := FolderName(items[i]);
      if f.Some? && f.value !in names {
        AppendFresh(names, f.value);
        SeenOrderAppend(items, i, names, f.value);
        names := names + [f.value];
      }
      i := i + 1;
    }
  }

  /** A name first met at position `i` comes after every name met before `i`. */
  lemma SeenOrderAppend(items: seq<ListItem>, i: int, names: seq<string>, y: string)
    requires 0 <= i <= |items|
    requires InSeenOrder(items, names)
    requires forall x :: x in names ==> exists k :: 0 <= k < i && FolderName(items[k]) == Some(x)
    requires forall k :: 0 <= k < i ==> FolderName(items[k]) != Some(y)
    ensures InSeenOrder(items, names + [y])
  {
    var s := names + [y];
    forall a, b | 0 <= a < b < |s| ensures SeenBefore(items, s[a], s[b]) {
      if b == |names| {
        assert s[a] == names[a] && s[a] in names;
        var k :| 0 <= k < i && FolderName(items[k]) == Some(s[a]);
      } else {
        assert s[a] == names[a] && s[b] == names[b];
      }
    }
  }

  /** The head of a list in seen order was seen before everything after it,
      and the rest is in seen order. */
  lemma SeenOrderUncons(items: seq<ListItem>, h: string, t: seq<string>)
    requires InSeenOrder(items, [h] + t)
    ensures forall y :: y in t ==> SeenBefore(items, h, y)
    ensures InSeenOrder(items, t)
  {
    var s := [h] + t;
    forall y | y in t ensures SeenBefore(items, h, y) {
      var b :| 0 <= b < |t| && t[b] == y;
      assert s[0] == h && s[b + 1] == y;
    }
    forall a, b | 0 <= a < b < |t| ensures SeenBefore(items, t[a], t[b]) {
      assert s[a + 1] == t[a] && s[b + 1] == t[b];
    }
  }

  /** Conversely, a head seen before the rest of a list in seen order keeps
      the list in seen order. */
  lemma SeenOrderCons(items: seq<ListItem>, h: string, t: seq<string>)
    requires forall y :: y in t ==> SeenBefore(items, h, y)
    requires InSeenOrder(items, t)
    ensures InSeenOrder(items, [h] + t)
  {
    var s := [h] + t;
    forall a, b | 0 <= a < b < |s| ensures SeenBefore(items, s[a], s[b]) {
      assert s[b] == t[b - 1] && t[b - 1] in t;
      if a > 0 {
        assert s[a] == t[a - 1];
      }
    }
  }

  /** The two `.filter` calls. */
  function FilterQuarterNames(names: seq<string>): (r: seq<string>)
    ensures forall x :: x in r <==> x in names && Keep(x)
    ensures multiset(r) <= multiset(names)
  {
    if names == [] then []
    else
      assert names == [names[0]] + names[1..];
      if Keep(names[0]) then [names[0]] + FilterQuarterNames(names[1..])
      else FilterQuarterNames(names[1..])
  }

  /** Filtering distributes over concatenation: the kept names stay in
      their input order. */
  lemma {:induction false} FilterQuarterNamesConcat(a: seq<string>, b: seq<string>)
    ensures FilterQuarterNames(a + b) == FilterQuarterNames(a) + FilterQuarterNames(b)
  {
    if a != [] {
      assert (a + b)[0] == a[0] && (a + b)[1..] == a[1..] + b;
      FilterQuarterNamesConcat(a[1..], b);
    } else {
      assert a + b == b;
    }
  }

  /** Dropping names keeps the rest in first-seen order. */
  lemma {:induction false} FilterKeepsSeenOrder(items: seq<ListItem>, s: seq<string>)
    requires InSeenOrder(items, s)
    ensures InSeenOrder(items, FilterQuarterNames(s))
  {
    if s != [] {
      assert s == [s[0]] + s[1..];
      SeenOrderUncons(items, s[0], s[1..]);
      FilterKeepsSeenOrder(items, s[1..]);
      if Keep(s[0]) {
        SeenOrderCons(items, s[0], FilterQuarterNames(s[1..]));
      }
    }
  }

  /** One rank class of a list in seen order is in seen order too. */
  lemma {:induction false} KeyClassKeepsSeenOrder(items: seq<ListItem>, key: string -> nat, v: nat, s: seq<string>)
    requires InSeenOrder(items, s)
    ensures InSeenOrder(items, KeyClass(key, v, s))
  {
    if s != [] {
      assert s == [s[0]] + s[1..];
      SeenOrderUncons(items, s[0], s[1..]);
      KeyClassKeepsSeenOrder(items, key, v, s[1..]);
      if key(s[0]) == v {
        SeenOrderCons(items, s[0], KeyClass(key, v, s[1..]));
      }
    }
  }

  /** The record sent for each kept folder. */
  datatype Quarter = Quarter(title: string, slug: string, description: string)

  function Titles(qs: seq<Quarter>): (ts: seq<string>)
    ensures |ts| == |qs| && forall i :: 0 <= i < |qs| ==> ts[i] == qs[i].title
  {
    if qs == [] then [] else [qs[0].title] + Titles(qs[1..])
  }

  function ToRecords(titles: seq<string>): (qs: seq<Quarter>)
    ensures Titles(qs) == titles
    ensures forall i :: 0 <= i < |qs| ==>
              qs[i].slug == Slug(qs[i].title) && qs[i].description == Description(qs[i].title)
  {
    var qs := seq(|titles|, i requires 0 <= i < |titles| => Quarter(titles[i], Slug(titles[i]), Description(titles[i])));
    assert Titles(qs) == titles by {
      forall i | 0 <= i < |qs| ensures Titles(qs)[i] == titles[i] {
        assert qs[i].title == titles[i];
      }
    }
    qs
  }

  /** `GET /api/quarters` over one listing of the container. */
  method ListQuarters(items: seq<ListItem>) returns (quarters: seq<Quarter>)
    ensures SortedLatestFirst(Titles(quarters))
    ensures Distinct(Titles(quarters))
    ensures forall x :: x in Titles(quarters) <==>
              Keep(x) && exists k :: 0 <= k < |items| && FolderName(items[k]) == Some(x)
    ensures forall i :: 0 <= i < |quarters| ==>
              quarters[i].slug == Slug(quarters[i].title)
              && quarters[i].description == Description(quarters[i].title)
    ensures forall v: nat :: InSeenOrder(items, KeyClass(Rank, v, Titles(quarters)))
  {
    var folders := CollectFolders(items);
    var filtered := FilterQuarterNames(folders);
    var sorted := SortQuarters(filtered);
    assert forall x :: x in sorted <==> x in filtered by {
      forall x ensures x in sorted <==> x in filtered {
        assert x in sorted <==> x in multiset(sorted);
        assert x in filtered <==> x in multiset(filtered);
      }
    }
    assert Distinct(sorted) by {
      forall x ensures multiset(sorted)[x] <= 1 {
        assert multiset(filtered)[x] <= multiset(folders)[x];
      }
    }
    FilterKeepsSeenOrder(items, folders);
    forall v: nat ensures InSeenOrder(items, KeyClass(Rank, v, sorted)) {
      SortQuartersStable(filtered, v);
      KeyClassKeepsSeenOrder(items, Rank, v, filtered);
    }
    quarters := ToRecords(sorted);
  }
}

=== FILE: uri_component.dfy ===
/** `encodeURIComponent` of ECMA-262: characters outside the unreserved set
    are written as the percent-escaped bytes of their UTF-8 encoding, with
    upper-case hexadecimal digits. Characters are Unicode scalar values, so
    the lone-surrogate error of the JavaScript function cannot arise. */
module UriComponent {
  import opened Common

  /** Characters `encodeURIComponent` leaves as they are. */
  predicate IsUnreserved(c: char) {
    IsAlnum(c) || c == '-' || c == '_' || c == '.' || c == '!' || c == '~'
    || c == '*' || c == '\'' || c == '(' || c == ')'
  }

  predicate AllUnreserved(s: string) {
    forall i :: 0 <= i < |s| ==> IsUnreserved(s[i])
  }

  /** What an encoded string may contain. */
  predicate IsEncoded(s: string) {
    forall i :: 0 <= i < |s| ==> IsUnreserved(s[i]) || s[i] == '%'
  }

  /** Upper-case hexadecimal digit of `d`. */
  function HexDigit(d: nat): (c: char)
    requires d < 16
    ensures IsAlnum(c)
  {
    if d < 10 then ('0' as int + d) as char else ('A' as int + d - 10) as char
  }

  /** The UTF-8 bytes of a code point. */
  function Utf8(n: nat): (bytes: seq<nat>)
    requires n <= 0x10FFFF
    ensures 1 <= |bytes| <= 4
    ensures forall i :: 0 <= i < |bytes| ==> bytes[i] < 256
    ensures |bytes| == 1 <==> n < 0x80
  {
    if n < 0x80 then [n]
    else if n < 0x800 then [0xC0 + n / 0x40, 0x80 + n % 0x40]
    else if n < 0x10000 then [0xE0 + n / 0x1000, 0x80 + (n / 0x40) % 0x40, 0x80 + n % 0x40]
    else [0xF0 + n / 0x40000, 0x80 + (n / 0x1000) % 0x40, 0x80 + (n / 0x40) % 0x40, 0x80 + n % 0x40]
  }

  function PercentBytes(bytes: seq<nat>): (r: string)
    requires forall i :: 0 <= i < |bytes| ==> bytes[i] < 256
    ensures |r| == 3 * |bytes| && IsEncoded(r)
    ensures forall k :: 0 <= k < |bytes| ==>
              && r[3 * k] == '%'
              && r[3 * k + 1] == HexDigit(bytes[k] / 16)
              && r[3 * k + 2] == HexDigit(bytes[k] % 16)
  {
    if bytes == [] then []
    else ['%', HexDigit(bytes[0] / 16), HexDigit(bytes[0] % 16)] + PercentBytes(bytes[1..])
  }

  function EncodeChar(c: char): (r: string)
    ensures IsEncoded(r)
    ensures IsUnreserved(c) ==> r == [c]
    ensures !IsUnreserved(c) ==> |r| >= 3 && r[0] == '%'
  {
    if IsUnreserved(c) then [c] else PercentBytes(Utf8(c as int))
  }

  /** `encodeURIComponent`: the result holds only unreserved characters and
      '%', and it is the input itself exactly when nothing needed escaping. */
  function Encode(s: string): (r: string)
    ensures IsEncoded(r)
    ensures |r| >= |s|
    ensures AllUnreserved(s) ==> r == s
    ensures |r| == |s| ==> AllUnreserved(s)
  {
    if s == [] then [] else EncodeChar(s[0]) + Encode(s[1..])
  }

  /** Encoding works character by character. */
  lemma {:induction false} EncodeConcat(a: string, b: string)
    ensures Encode(a + b) == Encode(a) + Encode(b)
    decreases |a|
  {
    if a == [] {
      assert a + b == b;
    } else {
      assert (a + b)[0] == a[0];
      assert (a + b)[1..] == a[1..] + b;
      EncodeConcat(a[1..], b);
    }
  }

  /** In particular a '/' never survives: the encoded text is one path segment. */
  lemma NoSlashAfterEncoding(s: string)
    ensures '/' !in Encode(s)
  {
    var r := Encode(s);
    assert forall i :: 0 <= i < |r| ==> r[i] != '/';
  }

  // ---------------------------------------------------------------------
  // Decoding: `decodeURIComponent` restricted to what the encoder emits
  // ---------------------------------------------------------------------

  /** The value of a hexadecimal digit of either case. */
  function HexValue(c: char): (v: Option<nat>)
    ensures v.Some? ==> v.value < 16
  {
    if '0' <= c <= '9' then Some(c as int - '0' as int)
    else if 'A' <= c <= 'F' then Some(c as int - 'A' as int + 10)
    else if 'a' <= c <= 'f' then Some(c as int - 'a' as int + 10)
    else None
  }

  lemma HexRoundTrip(d: nat)
    requires d < 16
    ensures HexValue(HexDigit(d)) == Some(d)
  {
  }

  /** The byte written by the `k`-th three-character escape "%XY" of `s`. */
  function EscapedByte(s: string, k: nat): (b: Option<nat>)
    ensures b.Some? ==> 3 * k + 3 <= |s| && b.value < 256
  {
    if 3 * k + 3 <= |s| && s[3 * k] == '%' && HexValue(s[3 * k + 1]).Some? && HexValue(s[3 * k + 2]).Some?
    then Some(16 * HexValue(s[3 * k + 1]).value + HexValue(s[3 * k + 2]).value)
    else None
  }

  /** The bytes of the first `len` escapes of `s`, when they all are escapes. */
  function EscapedBytes(s: string, len: nat): (r: Option<seq<nat>>)
    ensures r.Some? ==> |r.value| == len && forall k :: 0 <= k < len ==> EscapedByte(s, k) == Some(r.value[k])
    ensures r.None? ==> exists k :: 0 <= k < len && EscapedByte(s, k).None?
  {
    if len == 0 then Some([])
    else match EscapedBytes(s, len - 1)
      case None => None
      case Some(bs) =>
        match EscapedByte(s, len - 1)
        case None => None
        case Some(b) => Some(bs + [b])
  }

  /** Sequence length announced by a UTF-8 lead byte; 0 for a byte that cannot lead. */
  function Utf8Length(lead: nat): (len: nat)
    ensures len <= 4
  {
    if lead < 0x80 then 1
    else if 0xC0 <= lead < 0xE0 then 2
    else if 0xE0 <= lead < 0xF0 then 3
    else if 0xF0 <= lead < 0xF8 then 4
    else 0
  }

  predicate IsContinuation(b: nat) { 0x80 <= b < 0xC0 }

  /** The code point a well-formed UTF-8 sequence carries: the lead byte's
      payload followed by six bits from each continuation byte. */
  function Utf8Value(bytes: seq<nat>): int
    requires 1 <= |bytes| <= 4
  {
    if |bytes| == 1 then bytes[0]
    else if |bytes| == 2 then (bytes[0] as int - 0xC0) * 0x40 + (bytes[1] as int - 0x80)
    else if |bytes| == 3 then
      (bytes[0] as int - 0xE0) * 0x1000 + (bytes[1] as int - 0x80) * 0x40 + (bytes[2] as int - 0x80)
    else
      (bytes[0] as int - 0xF0) * 0x40000 + (bytes[1] as int - 0x80) * 0x1000
      + (bytes[2] as int - 0x80) * 0x40 + (bytes[3] as int - 0x80)
  }

  predicate IsScalar(v: int) { 0 <= v < 0xD800 || 0xE000 <= v <= 0x10FFFF }

  /** The character at the start of `s` written as escaped UTF-8 bytes, and
      the number of characters its escapes take up. */
  function DecodeEscape(s: string): (r: Option<(char, nat)>)
    ensures r.Some? ==> 3 <= r.value.1 <= |s|
  {
    match EscapedByte(s, 0)
    case None => None
    case Some(lead) =>
      var len := Utf8Length(lead);
      if len == 0 then None
      else match EscapedBytes(s, len)
        case None => None
        case Some(bs) =>
          if (forall k :: 1 <= k < len ==> IsContinuation(bs[k])) && IsScalar(Utf8Value(bs))
          then Some((Utf8Value(bs) as char, 3 * len))
          else None
  }

  function Prepend(c: char, r: Option<string>): Option<string> {
    if r.Some? then Some([c] + r.value) else None
  }

  /** `decodeURIComponent` for text made of unreserved characters and escapes. */
  function Decode(s: string): (r: Option<string>)
    decreases |s|
  {
    if s == [] then Some([])
    else if s[0] != '%' then
      if IsUnreserved(s[0]) then Prepend(s[0], Decode(s[1..])) else None
    else match DecodeEscape(s)
      case None => None
      case Some(e) => Prepend(e.0, Decode(s[e.1..]))
  }

  /** The `k`-th escape of a percent-encoded run, followed by anything. */
  lemma EscapeOfPercentAt(bytes: seq<nat>, rest: string, k: nat)
    requires forall i :: 0 <= i < |bytes| ==> bytes[i] < 256
    requires k < |bytes|
    ensures EscapedByte(PercentBytes(bytes) + rest, k) == Some(bytes[k])
  {
    var p := PercentBytes(bytes);
    var t := p + rest;
    var b := bytes[k];
    var hi, lo := b / 16, b % 16;
    assert 3 * k + 3 <= |p|;
    assert p[3 * k] == '%' && p[3 * k + 1] == HexDigit(hi) && p[3 * k + 2] == HexDigit(lo);
    assert t[3 * k] == '%' && t[3 * k + 1] == HexDigit(hi) && t[3 * k + 2] == HexDigit(lo);
    HexRoundTrip(hi);
    HexRoundTrip(lo);
    assert EscapedByte(t, k) == Some(16 * hi + lo);
  }

  /** Each byte of a percent-encoded run reads back from its escape. */
  lemma EscapesOfPercent(bytes: seq<nat>, rest: string)
    requires forall i :: 0 <= i < |bytes| ==> bytes[i] < 256
    ensures forall k :: 0 <= k < |bytes| ==> EscapedByte(PercentBytes(bytes) + rest, k) == Some(bytes[k])
  {
    forall k | 0 <= k < |bytes| ensures EscapedByte(PercentBytes(bytes) + rest, k) == Some(bytes[k]) {
      EscapeOfPercentAt(bytes, rest, k);
    }
  }

  lemma {:induction false} EscapedBytesOf(s: string, bytes: seq<nat>, len: nat)
    requires len <= |bytes|
    requires forall k :: 0 <= k < |bytes| ==> EscapedByte(s, k) == Some(bytes[k])
    ensures EscapedBytes(s, len) == Some(bytes[..len])
  {
    if len > 0 {
      EscapedBytesOf(s, bytes, len - 1);
      assert bytes[..len] == bytes[..len - 1] + [bytes[len - 1]];
    }
  }

  lemma Utf8Two(n: nat)
    requires 0x80 <= n < 0x800
    ensures var bs := Utf8(n);
            Utf8Length(bs[0]) == 2 && IsContinuation(bs[1]) && Utf8Value(bs) == n
  {
  }

  lemma Utf8Three(n: nat)
    requires 0x800 <= n < 0x10000
    ensures var bs := Utf8(n);
            && Utf8Length(bs[0]) == 3 && IsContinuation(bs[1]) && IsContinuation(bs[2])
            && Utf8Value(bs) == n
  {
    var q := n / 0x40;
    assert n == q * 0x40 + n % 0x40;
    assert q == (n / 0x1000) * 0x40 + q % 0x40;
  }

  lemma Utf8Four(n: nat)
    requires 0x10000 <= n <= 0x10FFFF
    ensures var bs := Utf8(n);
            && Utf8Length(bs[0]) == 4
            && IsContinuation(bs[1]) && IsContinuation(bs[2]) && IsContinuation(bs[3])
            && Utf8Value(bs) == n
  {
    var q := n / 0x40;
    var p := n / 0x1000;
    assert n == q * 0x40 + n % 0x40;
    assert q == p * 0x40 + q % 0x40;
    assert p == (n / 0x40000) * 0x40 + p % 0x40;
  }

  /** The UTF-8 bytes of a code point announce their own length, continue
      properly, and carry the code point back. */
  lemma Utf8Decodes(n: nat)
    requires n <= 0x10FFFF
    ensures var bs := Utf8(n);
            && Utf8Length(bs[0]) == |bs|
            && (forall k :: 1 <= k < |bs| ==> IsContinuation(bs[k]))
            && Utf8Value(bs) == n
  {
    if 0x80 <= n < 0x800 {
      Utf8Two(n);
    } else if 0x800 <= n < 0x10000 {
      Utf8Three(n);
    } else if 0x10000 <= n {
      Utf8Four(n);
    }
  }

  /** An escaped character decodes back to itself, using exactly its escapes. */
  lemma EscapeRoundTrip(c: char, rest: string)
    requires !IsUnreserved(c)
    ensures DecodeEscape(EncodeChar(c) + rest) == Some((c, |EncodeChar(c)|))
  {
    var bs := Utf8(c as int);
    var t := EncodeChar(c) + rest;
    EscapesOfPercent(bs, rest);
    EscapedBytesOf(t, bs, |bs|);
    assert bs[..|bs|] == bs;
    Utf8Decodes(c as int);
  }

  /** Decoding undoes encoding, so `encodeURIComponent` is injective. */
  lemma {:induction false} DecodeEncode(s: string)
    ensures Decode(Encode(s)) == Some(s)
    decreases |s|
  {
    if s != [] {
      var e, rest := EncodeChar(s[0]), Encode(s[1..]);
      assert Encode(s) == e + rest;
      assert [s[0]] + s[1..] == s;
      DecodeEncode(s[1..]);
      if IsUnreserved(s[0]) {
        assert (e + rest)[1..] == rest;
      } else {
        EscapeRoundTrip(s[0], rest);
        assert (e + rest)[0] == '%';
        assert (e + rest)[|e|..] == rest;
        assert Decode(e + rest) == Prepend(s[0], Decode(rest));
      }
    }
  }

  lemma EncodeInjective(a: string, b: string)
    requires Encode(a) == Encode(b)
    ensures a == b
  {
    DecodeEncode(a);
    DecodeEncode(b);
  }
}
